=== FILE: README.md ===
# CCC-SRMS record store and request logic, in Dafny

CCC-SRMS is a school records system. Its server keeps five collections in
line-delimited JSON files: students, teachers, attendance, marks and payments.
Every route reads or writes them through the helpers in
`server/utils/fileOps.js`. This project models those helpers and the request
logic of the admin, teacher, parent, student and auth routes, and proves what
they promise:

- the store's round trips;
- first-match and every-match behaviour;
- the order of the validation checks, and that a refused request writes nothing;
- the payment ledger's numbering and fee update;
- the aggregations (attendance statistics, average marks, fee balance) and the
  per-student join;
- that passwords never leave the server.

The modules follow the program's structure:

| module | file | models |
|---|---|---|
| `Values` | values.dfy | JSON values and flat records, JavaScript truthiness, `x || default`, object spread, `{ password, ...rest }` |
| `Seqs` | seqs.dfy | `find`, `filter`, `map`, and the lemmas that pin them down |
| `Text` | text.dfy | `trim`, `split('\n')`, `join('\n')` |
| `Numbers` | numbers.dfy | `parseFloat` on the integer part, `toString`, `padStart` |
| `FileOps` | fileops.dfy | the file helpers, on file text, with JSON as a lawful codec parameter |
| `Store` | store.dfy | the collections as sequences of records, the errors, and the primary-key discipline |
| `Stats` | stats.dfy | `Math.round` of a ratio, attendance statistics, average marks, fee balance |
| `Profiles` | profiles.dfy | the per-student join that the student and parent views share |
| `Student` | student.dfy | `GET /api/student/:id` |
| `Parent` | parent.dfy | `GET /api/parent/:phone` and `POST /api/payment` |
| `Admin` | admin.dfy | add, edit and delete for students and teachers, and the listings |
| `Teacher` | teacher.dfy | attendance, bulk attendance, marks, the class filter and the attendance report |
| `Auth` | auth.dfy | login and change-password |

`FileOps` works on the text of a file (`Option<string>`, where `None` means the
file does not exist). Its lemmas show that reading after `writeFile`,
`appendFile`, `updateRecord` or `deleteRecord` gives exactly the sequence the
operation meant. So the route modules work on `Store.Db`, a map from collection
to its sequence of records, and each route is a pure function from the store
and the request to a reply and the new store.

The code and its own comments or evident intent disagree in two places.
The model follows the code in both:

- The comment on `updateRecord` (`server/utils/fileOps.js`, lines 59 and 63)
  speaks of updating one record, but the function merges the patch into every
  matching record, not only the first (`FileOps.MergeInto`). Change-password and the payment's fee update
  therefore touch every record that shares the id.
- add-student stores `feeStatus: 'pending'` even when the fee total is 0,
  although the status is meant to say whether the fees are paid. Such
  a student has paid everything yet is not marked paid. `Admin.NewStudentFeeStatus`
  states exactly when a new student's status is consistent with its fees.

## Model

| member | source | states |
|---|---|---|
| FileOps.ReadFile | CCC-SRMS/server/utils/fileOps.js:16-34 | A missing file holds no records, and every record read is what one of the file's trimmed, split lines parses to |
| FileOps.ReadBlank | CCC-SRMS/server/utils/fileOps.js:19-24 | A missing file, or one that is blank after trimming, reads as no records |
| FileOps.ParseLines | CCC-SRMS/server/utils/fileOps.js:26-33 | Every record read comes from some line; no line is lost exactly when every line parses |
| FileOps.ParseLinesAppend | CCC-SRMS/server/utils/fileOps.js:26-33 | Reading lines distributes over concatenation, so records keep file order |
| FileOps.ParseLine | CCC-SRMS/server/utils/fileOps.js:27-32 | A line that fails to parse is dropped; one that parses gives its record |
| FileOps.ParseLinesOfRecords | CCC-SRMS/server/utils/fileOps.js:26-33 | Parsing the serialised lines of records gives the records back |
| FileOps.Lines | CCC-SRMS/server/utils/fileOps.js:43 | One serialised line per record, in order |
| FileOps.LinesAreSolid | CCC-SRMS/server/utils/fileOps.js:43 | A serialised record has no newline and no blank at either end |
| FileOps.WriteFile | CCC-SRMS/server/utils/fileOps.js:41-45 | The written file ends in a newline, and no records give a lone newline |
| FileOps.WriteThenRead | CCC-SRMS/server/utils/fileOps.js:41-45 | Reading after writing records gives exactly those records, also for none, and leaves the file tidy |
| FileOps.WriteSolidLines | CCC-SRMS/server/utils/fileOps.js:43-44 | Joined solid lines plus the final newline trim and split back into the same lines |
| FileOps.AppendFile | CCC-SRMS/server/utils/fileOps.js:52-56 | The earlier text stays as a prefix, followed by exactly one serialised line and its newline; a missing file is created with that line alone |
| FileOps.AppendThenRead | CCC-SRMS/server/utils/fileOps.js:52-56 | Reading after appending a record to a tidy file gives the old records followed by it, and keeps the file tidy |
| FileOps.AppendToBlank | CCC-SRMS/server/utils/fileOps.js:52-56 | Appending to an empty file reads back as the one line |
| FileOps.AppendToLines | CCC-SRMS/server/utils/fileOps.js:52-56 | Appending to a file of lines adds exactly one line at the end |
| FileOps.UpdateRecord | CCC-SRMS/server/utils/fileOps.js:65-82 | Reports a match exactly when some record matches, and leaves the file as it was otherwise |
| FileOps.MergeInto | CCC-SRMS/server/utils/fileOps.js:69-75 | Every match gets the patch merged in; the others stay; length and order are kept |
| FileOps.UpdateThenRead | CCC-SRMS/server/utils/fileOps.js:65-82 | Reading after an update gives the records with the patch merged into every match, and a tidy file stays tidy |
| FileOps.DeleteRecord | CCC-SRMS/server/utils/fileOps.js:90-100 | Reports a deletion exactly when some record matches, and writes nothing otherwise |
| FileOps.DeleteThenRead | CCC-SRMS/server/utils/fileOps.js:90-100 | Reading after a delete gives the non-matching records in order, and a tidy file stays tidy |
| FileOps.FindRecord | CCC-SRMS/server/utils/fileOps.js:108-111 | Null exactly when nothing matches; otherwise the first match in file order |
| FileOps.FindRecords | CCC-SRMS/server/utils/fileOps.js:119-122 | All records without a predicate; with one, the matching records in file order, and exactly those |
| Values.Truthy | CCC-SRMS/server/routes/admin.js:15 | A value is truthy exactly when it is present and not '', 0, false or null |
| Values.OrElse | CCC-SRMS/server/routes/parent.js:96-100 | `x || default`: the supplied value when truthy, else the default |
| Values.Merge | CCC-SRMS/server/utils/fileOps.js:72 | Object spread: the fields of both, the patch's values winning, all others kept |
| Values.Without | CCC-SRMS/server/routes/student.js:37 | Rest destructuring: the field is gone and every other field is kept |
| Seqs.Find | CCC-SRMS/server/utils/fileOps.js:110 | None exactly when nothing matches; otherwise the first match |
| Seqs.Filter | CCC-SRMS/server/utils/fileOps.js:121 | Keeps exactly the matching elements, and all of them when all match |
| Seqs.FilterAppend | CCC-SRMS/server/utils/fileOps.js:121 | Filtering distributes over concatenation, so order is kept |
| Seqs.FindAppend | CCC-SRMS/server/utils/fileOps.js:110 | The first match of a concatenation lies in the front part when it has one |
| Seqs.FilterFilter | CCC-SRMS/server/routes/teacher.js:102-104 | Filtering twice keeps what filtering once by both conditions keeps |
| Store.Append | CCC-SRMS/server/utils/fileOps.js:52-56 | Appending adds the record last and changes no other collection |
| Store.Update | CCC-SRMS/server/utils/fileOps.js:65-82 | An update reports a match exactly when there is one, leaves the store alone otherwise, and changes one collection |
| Store.Delete | CCC-SRMS/server/utils/fileOps.js:90-100 | A delete reports exactly when something matched, keeps the rest in order, and changes one collection |
| Store.MergeIntoFields | CCC-SRMS/server/utils/fileOps.js:72 | After a merge the patched fields hold the patch's values on the matches, and every other field is unchanged |
| Store.FilterKeyed | CCC-SRMS/server/utils/fileOps.js:92 | Deleting records keeps primary keys distinct |
| Store.AppendKeyed | CCC-SRMS/server/routes/admin.js:20-45 | Appending a record whose key is not taken keeps primary keys distinct |
| Numbers.ParseNumber | CCC-SRMS/server/routes/parent.js:75 | `parseFloat` reads a number as itself and undefined, null or a boolean as NaN |
| Numbers.NumberOrNull | CCC-SRMS/server/routes/teacher.js:78 | NaN is stored as null, and reading the stored value back with `parseFloat` gives the same number or NaN |
| Numbers.ParseNumeral | CCC-SRMS/server/routes/parent.js:75 | A string parses to no number exactly when no digits follow the leading blanks and sign |
| Numbers.ParseDigits | CCC-SRMS/server/routes/parent.js:75 | A numeral of plain digits parses to its value |
| Numbers.ParseNegatedDigits | CCC-SRMS/server/routes/parent.js:75 | A minus sign before plain digits parses to the negated value |
| Numbers.ParseDecimal | CCC-SRMS/server/routes/parent.js:75 | The decimal text of a number, with or without a minus sign, parses back to it |
| Numbers.DecimalValue | CCC-SRMS/server/routes/parent.js:90 | The digits of a number's decimal text have that number as value |
| Numbers.PadStart | CCC-SRMS/server/routes/parent.js:90 | Pads on the left with the fill up to the width, never truncates, and keeps the text as a suffix |
| Stats.RoundDiv | CCC-SRMS/server/routes/student.js:24 | The result is the nearest integer to the ratio, halves rounded up |
| Stats.RoundDivUnique | CCC-SRMS/server/routes/student.js:24 | No other integer lies that close to the ratio |
| Stats.RoundDivWithin | CCC-SRMS/server/routes/admin.js:214-216 | A rounded ratio stays within bounds the exact ratio has |
| Stats.StatsOf | CCC-SRMS/server/routes/teacher.js:124-139 | total is the record count, present the records marked present, absent the rest, and percentage the rounded share, 0 for no records, within 0..100 |
| Stats.StatsExamples | CCC-SRMS/server/routes/teacher.js:127-129 | No records give all zeros; 2 of 3 present rounds to 67 and 1 of 8 to 13 |
| Stats.MarkValues | CCC-SRMS/server/routes/admin.js:215 | One number per marks record, in order |
| Stats.AverageMarks | CCC-SRMS/server/routes/admin.js:213-216 | 0 without marks; otherwise the integer nearest to the mean of the marks, halves rounded up |
| Stats.AverageWithin | CCC-SRMS/server/routes/admin.js:213-216 | The rounded average of marks between two bounds is between them |
| Stats.FeeBalance | CCC-SRMS/server/routes/student.js:34 | The balance plus what is paid is the fee total; on a record whose status agrees with its fees the balance is at most 0 exactly when the status is 'paid' |
| Stats.FeeBalanceUnclamped | CCC-SRMS/server/routes/student.js:34 | An overpaid fee gives a negative balance |
| Profiles.ProfileOf | CCC-SRMS/server/routes/student.js:21-54 | The join: the student without password; exactly that student's attendance, marks and payments in file order; the statistics of exactly that attendance; the unclamped balance |
| Profiles.FreshStudentProfile | CCC-SRMS/server/routes/student.js:23-34 | With no attendance yet, the statistics are zero, and fees 50000 and 20000 leave 30000 |
| Profiles.StripPasswords | CCC-SRMS/server/routes/teacher.js:107 | One record per input, in order, each without password and otherwise the same |
| Student.StudentView | CCC-SRMS/server/routes/student.js:9-60 | Not found exactly when no student has the id; otherwise the join for the first such student, without password |
| Parent.ParentView | CCC-SRMS/server/routes/parent.js:9-60 | Not found exactly when no student has the phone; otherwise the join for the first such student, by that student's own id |
| Parent.PaymentId | CCC-SRMS/server/routes/parent.js:90 | 'P' and the padded number, one longer than the number's width or 5 characters |
| Parent.PaymentIdNumber | CCC-SRMS/server/routes/parent.js:90 | The id's digits read back as the payment count plus one |
| Parent.PaymentIdInjective | CCC-SRMS/server/routes/parent.js:90 | Different payment counts give different ids |
| Parent.PaymentIdExamples | CCC-SRMS/server/routes/parent.js:90 | The first payment is P0001, and after six payments the next is P0007 |
| Parent.PaymentIdPastFourDigits | CCC-SRMS/server/routes/parent.js:90 | From the 10000th payment on the id grows instead of being truncated |
| Parent.NumberedIdsDistinct | CCC-SRMS/server/routes/parent.js:89-90 | In a ledger numbered by position no two payments share an id |
| Parent.NaNAmountPasses | CCC-SRMS/server/routes/parent.js:75-79 | The amount "abc" is truthy, parses to no number, and passes the guard as written |
| Parent.AmountPassesAsWritten | CCC-SRMS/server/routes/parent.js:77-79 | The written check refuses exactly the numbers at most 0, and lets NaN through |
| Parent.ValidAmount | CCC-SRMS/server/routes/parent.js:75-79 | The intended check accepts exactly the numbers the written check passes, and only positive ones |
| Parent.NewPayment | CCC-SRMS/server/routes/parent.js:93-101 | Exactly the fields paymentId, studentId, amount, date, mode and note, plus parentPhone unless neither the body nor the student has one; the id, student, amount (null for NaN) and date; mode defaults to 'online', note to '', and parentPhone to the student's |
| Parent.FeePatch | CCC-SRMS/server/routes/parent.js:106-116 | Sets only feePaid and feeStatus: with a number feePaid grows by it and the status is 'paid' exactly when the fee is covered; with NaN feePaid is null and the status 'pending' |
| Parent.PayWrites | CCC-SRMS/server/routes/parent.js:103-116 | The payment goes last in the ledger, the fee patch is merged into every student with the id, and no other collection changes |
| Parent.Pay | CCC-SRMS/server/routes/parent.js:89-123 | One payment appended last with the next id; the students updated with the fee patch; newBalance is the old balance less the amount, null for NaN; no other collection changes |
| Parent.MakePayment | CCC-SRMS/server/routes/parent.js:67-129 | As written: the checks run in order (missing fields, then an amount at most 0, then unknown student) and a refusal writes nothing; success exactly when all pass, NaN included, paying for the first student with the id |
| Parent.MakePaymentIntended | CCC-SRMS/server/routes/parent.js:67-129 | With the intended amount check: the same order, but every amount that is not a positive number is refused, so a recorded payment's amount is a positive number |
| Parent.IntendedDiffersOnlyOnNaN | CCC-SRMS/server/routes/parent.js:75-79 | The written and intended routes answer alike on every amount that parses, and differ exactly on a truthy amount that parses to NaN |
| Parent.NaNPay | CCC-SRMS/server/routes/parent.js:103-122 | Once accepted, a payment without a numeric amount appends a null amount, sets feePaid to null and feeStatus to 'pending' on the student, and returns a null balance |
| Parent.NaNPaymentRecorded | CCC-SRMS/server/routes/parent.js:75-122 | As written, a NaN amount for a known student is recorded: a null amount is appended, the student's feePaid becomes null and the status 'pending', and newBalance is null |
| Parent.PaymentUpdatesFees | CCC-SRMS/server/routes/parent.js:106-116 | After a payment of a number the student's feePaid is the old value plus it and the status agrees with the fees; after NaN feePaid is null and the status 'pending'; no other field or student changes |
| Parent.PaymentKeepsLedgerNumbered | CCC-SRMS/server/routes/parent.js:89-103 | Every payment request keeps the ledger numbered P0001, P0002, … by position |
| Parent.FeeFieldsOnly | CCC-SRMS/server/routes/parent.js:109-116 | Merging the two fee fields changes no other field of any student |
| Parent.SettlingPayment | CCC-SRMS/server/routes/parent.js:106-122 | Paying 30000 against fees of 50000 with 20000 paid settles them: balance 0, feePaid 50000, status 'paid' |
| Admin.FeeTotalOrZero | CCC-SRMS/server/routes/admin.js:40 | The parsed fee total, or 0 when it does not parse |
| Admin.ProfileDefaults | CCC-SRMS/server/routes/admin.js:32-37 | Exactly the six profile fields, each the supplied value when truthy, else '' |
| Admin.NewStudent | CCC-SRMS/server/routes/admin.js:29-43 | The new student keeps the id, name and parent phone and stores the hash of the password |
| Admin.StudentCore | CCC-SRMS/server/routes/admin.js:29-42 | The seven non-profile fields: id, name and phone as given, the hashed password, the parsed fee total, nothing paid and 'pending' |
| Admin.NewStudentFields | CCC-SRMS/server/routes/admin.js:29-43 | A new student has exactly the thirteen fields of the record |
| Admin.NewStudentDefaults | CCC-SRMS/server/routes/admin.js:32-37 | Each profile field is the supplied value, or '' when missing or empty |
| Admin.NewStudentFees | CCC-SRMS/server/routes/admin.js:40-42 | feeTotal is the parsed value or 0, feePaid is 0, feeStatus is 'pending' |
| Admin.NewStudentFeeStatus | CCC-SRMS/server/routes/admin.js:40-42 | A new student's status agrees with its fees exactly when the fee total is positive |
| Admin.AddStudent | CCC-SRMS/server/routes/admin.js:10-53 | Missing fields, then duplicate id, are refused with no write; otherwise the new student is appended last and answered without password |
| Admin.NewTeacher | CCC-SRMS/server/routes/admin.js:75-80 | The new teacher has exactly id, name, subject ('' by default) and the hashed password |
| Admin.AddTeacher | CCC-SRMS/server/routes/admin.js:59-90 | Missing fields, then duplicate id, are refused with no write; otherwise the new teacher is appended last and answered without password |
| Admin.AddStudentKeepsKeyed | CCC-SRMS/server/routes/admin.js:20-45 | Adding students keeps student ids unique |
| Admin.AddTeacherKeepsKeyed | CCC-SRMS/server/routes/admin.js:68-82 | Adding teachers keeps teacher ids unique |
| Admin.StudentPatch | CCC-SRMS/server/routes/admin.js:99-107 | The body without studentId and password, with supplied fees parsed to numbers |
| Admin.TeacherPatch | CCC-SRMS/server/routes/admin.js:152-155 | The body without teacherId and password |
| Admin.EditById | CCC-SRMS/server/utils/fileOps.js:65-82 | Not found exactly when no record has the id, with no write; the patched fields change on every match and nothing else changes |
| Admin.EditStudent | CCC-SRMS/server/routes/admin.js:96-121 | Not found exactly when no student has the id; id and password never change; fields the body omits are kept; supplied fields are set, feeTotal and feePaid to their parseFloat value; students with another id are unchanged |
| Admin.EditedFees | CCC-SRMS/server/routes/admin.js:106-107 | A supplied feeTotal or feePaid reaches every student with the id as parseFloat of the supplied value |
| Admin.EditTeacher | CCC-SRMS/server/routes/admin.js:149-169 | Not found exactly when no teacher has the id; id and password never change; fields the body omits are kept; supplied fields are set; teachers with another id are unchanged |
| Admin.EditIdempotent | CCC-SRMS/server/routes/admin.js:109 | Applying the same edit twice changes nothing the second time |
| Admin.MergeIntoTwice | CCC-SRMS/server/utils/fileOps.js:69-75 | Merging the same patch again into the records with an id is a no-op when the patch keeps the id |
| Admin.DeleteById | CCC-SRMS/server/utils/fileOps.js:90-100 | Not found exactly when no record has the id; otherwise every record with the id goes and the rest stay in order |
| Admin.DeleteStudent | CCC-SRMS/server/routes/admin.js:127-143 | Not found exactly when no student has the id; afterwards the students are exactly those with another id, in their order and number, as `filter` keeps them |
| Admin.DeleteTeacher | CCC-SRMS/server/routes/admin.js:175-191 | Not found exactly when no teacher has the id; afterwards the teachers are exactly those with another id, in their order and number, as `filter` keeps them |
| Admin.DeleteTwice | CCC-SRMS/server/routes/admin.js:131-137 | Deleting the same id again reports not found and changes nothing |
| Admin.EditDeleteKeepKeyed | CCC-SRMS/server/routes/admin.js:109 | Edits that keep the key, and deletes, keep primary keys distinct |
| Admin.AddThenDelete | CCC-SRMS/server/routes/admin.js:45 | Adding a student and deleting its id restores every collection |
| Admin.AddedStudentIsFound | CCC-SRMS/server/routes/admin.js:45 | After an add, looking the id up finds exactly the new student |
| Admin.Summary | CCC-SRMS/server/routes/admin.js:218-224 | The listed student has no password and keeps every stored field except the three computed ones |
| Admin.SummaryAgreesWithProfile | CCC-SRMS/server/routes/admin.js:204-224 | The listing's percentage, average marks and balance equal those of the student's own view |
| Admin.StudentsSummary | CCC-SRMS/server/routes/admin.js:199-225 | One summary per student, in file order, none with a password |
| Admin.SummaryBounds | CCC-SRMS/server/routes/admin.js:206-216 | The listed percentage is within 0..100, and the average lies within any bounds the marks lie in |
| Admin.TeacherList | CCC-SRMS/server/routes/admin.js:241 | One entry per teacher, in order, without password and otherwise the same |
| Teacher.AttendanceRecord | CCC-SRMS/server/routes/teacher.js:18-22 | Exactly the three fields date, studentId and status |
| Teacher.MarkAttendance | CCC-SRMS/server/routes/teacher.js:10-32 | Missing date, student or status is refused with no write; otherwise exactly one record is appended |
| Teacher.MarkTwiceKeepsBoth | CCC-SRMS/server/routes/teacher.js:24 | Marking the same attendance twice stores two records |
| Teacher.EntryRecords | CCC-SRMS/server/routes/teacher.js:47-51 | One record per entry, in order, with the request date |
| Teacher.BulkRecords | CCC-SRMS/server/routes/teacher.js:47-51 | At most one record per entry, each with the request date |
| Teacher.BulkRecordsOfMarked | CCC-SRMS/server/routes/teacher.js:47-51 | The bulk records are one per entry with both a student and a status, in input order |
| Teacher.BulkRecordsSnoc | CCC-SRMS/server/routes/teacher.js:47-51 | One more entry adds its record at the end when it is complete, and nothing otherwise |
| Teacher.VisitEntry | CCC-SRMS/server/routes/teacher.js:48-50 | One entry appends its record when it is complete and changes only attendance |
| Teacher.BulkAttendance | CCC-SRMS/server/routes/teacher.js:39-59 | Refused with no write when the date is missing or no array is given; otherwise the bulk records are appended in input order |
| Teacher.BulkOfOneIsSingle | CCC-SRMS/server/routes/teacher.js:14-51 | A bulk request of one complete entry appends what the single route appends |
| Teacher.MarksRecord | CCC-SRMS/server/routes/teacher.js:74-79 | The marks record has student, subject, term and the parsed marks |
| Teacher.AddMarks | CCC-SRMS/server/routes/teacher.js:66-89 | Refused with no write when student, subject or term is missing or marks is absent; otherwise one record is appended |
| Teacher.AddedMarkCounted | CCC-SRMS/server/routes/teacher.js:74-81 | An added mark counts last among its student's mark values, the ones the dashboards average; other students' marks are unchanged |
| Teacher.ZeroMarkAccepted | CCC-SRMS/server/routes/teacher.js:70 | Marks of 0 are accepted and stored as 0 |
| Teacher.NarrowIsFilter | CCC-SRMS/server/routes/teacher.js:102-104 | A class condition not given keeps everyone; one given keeps exact matches |
| Teacher.ClassFilters | CCC-SRMS/server/routes/teacher.js:102-104 | The three filters in a row keep exactly the students in the class |
| Teacher.ClassStudents | CCC-SRMS/server/routes/teacher.js:95-115 | The students in the class, in file order, without passwords |
| Teacher.WholeSchool | CCC-SRMS/server/routes/teacher.js:99-107 | With no class given every student is listed, in file order, without password |
| Teacher.Report | CCC-SRMS/server/routes/teacher.js:121-146 | Exactly the student's attendance records in file order, and the statistics of those records |
| Teacher.ReportAgreesWithProfile | CCC-SRMS/server/routes/teacher.js:124-139 | The teacher's report equals the attendance part of the student's own view |
| Auth.Accounts | CCC-SRMS/server/routes/auth.js:37-54 | teacher reads teachers by teacherId, student reads students by studentId, parent reads students by parentPhone, and no other role reads anything |
| Auth.Login | CCC-SRMS/server/routes/auth.js:11-83 | Missing fields, the fixed admin check, an unknown role, then the first account with the id: not found when none, invalid password when the compare fails, else the user without password |
| Auth.AdminLoginReadsNothing | CCC-SRMS/server/routes/auth.js:25-35 | The admin login gives the same answer whatever the store holds |
| Auth.ParentLoginIsParentView | CCC-SRMS/server/routes/auth.js:47-57 | A parent logs in as the same student the parent view shows |
| Auth.LoginSucceeds | CCC-SRMS/server/routes/auth.js:57-77 | A login whose id is held, by accounts that all accept the password, succeeds |
| Auth.NewHash | CCC-SRMS/server/routes/auth.js:120-127 | The patch sets the password field alone |
| Auth.ChangePassword | CCC-SRMS/server/routes/auth.js:90-139 | Missing fields, then a role other than student or teacher, are refused; every refusal writes nothing; the update never fails; success merges the new hash into the accounts with the id and touches no other collection |
| Auth.ChangePasswordRefusals | CCC-SRMS/server/routes/auth.js:106-117 | Not found exactly when no account has the id; otherwise success exactly when the first such account accepts the old password |
| Auth.MergePassword | CCC-SRMS/server/routes/auth.js:123-127 | Merging the new hash changes only the password of the accounts with the id |
| Auth.PasswordChanged | CCC-SRMS/server/routes/auth.js:123-133 | After a change every account with the id holds the new hash, no other field changed, and other accounts are untouched |
| Auth.SetPasswordFindsIt | CCC-SRMS/server/routes/auth.js:106-127 | Setting passwords keeps the login id held, with the new password on every holder |
| Auth.ChangedAccountsAcceptNew | CCC-SRMS/server/routes/auth.js:106-127 | After a change the id is still held, and every account holding it accepts the new password |
| Auth.ChangeThenLogin | CCC-SRMS/server/routes/auth.js:57-127 | After a change, logging in with the new password succeeds |
| Auth.ChangePasswordKeepsKeyed | CCC-SRMS/server/routes/auth.js:123-127 | Changing a password keeps login ids unique |

## Left out

- The file system and HTTP are left out: `fs` calls, creating the data directory, Express routing, status codes, messages and the catch-all 500 answer. A reply is a `Store.Result` and the collections after it.
- JSON text is left out. `JSON.stringify` and `JSON.parse` are the `FileOps.Codec` parameter. `FileOps.Lawful` states their round trip, and that a serialised line has no newline and no blank at either end.
- Password hashing is left out. `server/utils/auth.js` is not part of this model, so `hashPassword` is the parameter `hash` and `comparePassword` the parameter `matches`.
- Floating point is left out. Numbers are integers. `parseFloat` reads the integer part (`Numbers.ParseNumeral`), so fractions, exponents and `Infinity` are not modelled. `Math.round(p / n * 100)` is the exact half-up ratio (`Stats.RoundDiv`), with no rounding error of the double computation.
- Values.AsNumber: arithmetic and comparison on stored fields read a number as itself, null and false as 0 and true as 1, as JavaScript does, but also read a missing field and any string as 0. JavaScript differs there. `-` converts a numeric string (`"50000" - "20000"` is 30000) and gives NaN for a missing field or a non-numeric string. `>=` converts a numeric string too, but a comparison with a missing field or a non-numeric string is false, not NaN. `+` with a string concatenates. The averages, balances and fee statuses are therefore faithful on numeric and null fields only.
- Parent.FeePatch: the `>=` of parent.js:107 compares against `AsNumber` of `feeTotal`, so a missing `feeTotal` counts as 0 and a covered payment gives `'paid'`. In JavaScript any comparison with `undefined` is false, which gives `'pending'`. Likewise a missing `feePaid` counts as 0 here, where JavaScript's `undefined + amount` is NaN.
- The NaN that `parseFloat` gives for a non-number is stored as null (`Numbers.NumberOrNull`), which is what serialising NaN writes.
- Dates are left out. The payment date is the parameter `today`.
- Concurrency is left out: the model is sequential. The lost update of read-all/write-all and the gap between appending a payment and updating the student cannot happen here.
- Records are flat. Nested objects and arrays as field values are not modelled.
- Teacher.BulkAttendance: an entry that is null or undefined makes the source throw partway through its appends. An entry that is a number, a string or a boolean has no studentId or status, so the source skips it. The model treats every entry as a record, so the partial write is not modelled. A record without these fields is skipped, just as those entries are.
- Query and route parameters are strings. A repeated query parameter, which Express gives as an array, is not modelled.
- `GET /api/admin/payments` returns the payments collection as stored, which is `Store.Read(db, Payments)`. It has no member of its own.
- The client pages under `public/js` and the fixtures of `server/seedData.js` are left out. The seed values only appear as the concrete scenarios of `Parent.PaymentIdExamples`, `Parent.SettlingPayment` and `Profiles.FreshStudentProfile`.

## Findings

| source | as written | input that shows it | evidently intended | confidence | as-written member | corrected member |
|---|---|---|---|---|---|---|
| CCC-SRMS/server/routes/parent.js:75-79 | the amount is refused only when `parseFloat(amount) <= 0`; NaN compares false, so a non-numeric amount passes | amount "abc": truthy, parses to NaN, passes the guard; the payment amount and the new feePaid are NaN, which JSON stores as null | refuse every amount that is not a positive number | not executed | Parent.NaNPaymentRecorded | Parent.MakePaymentIntended |

`Parent.MakePayment` is the route as written and accepts such a payment.
`Parent.MakePaymentIntended` is the route with the corrected check
(`Parent.ValidAmount`); `Parent.IntendedDiffersOnlyOnNaN` shows the two agree
on every amount that parses to a number.

=== FILE: admin.dfy ===
/** The admin dashboard's routes: adding, editing and deleting students and
    teachers, and the aggregated student list. Password hashing is the
    parameter `hash`. */
module Admin {
  import opened Values
  import opened Seqs
  import opened Numbers
  import opened Store
  import opened Stats
  import opened Profiles
  import FileOps

  // ---------------------------------------------------------------------
  // Adding

  /** The fields `add-student` refuses to do without. */
  predicate StudentComplete(body: Record) {
    Truthy(Get(body, "studentId")) && Truthy(Get(body, "name")) &&
    Truthy(Get(body, "password")) && Truthy(Get(body, "parentPhone"))
  }

  /** The fields `add-teacher` refuses to do without. */
  predicate TeacherComplete(body: Record) {
    Truthy(Get(body, "teacherId")) && Truthy(Get(body, "name")) && Truthy(Get(body, "password"))
  }

  /** The profile fields that default to the empty string. */
  const ProfileFields: set<string> := {"dob", "year", "branch", "section", "club", "hostel"}

  /** `parseFloat(v) || 0`: the fee total, with `NaN` and 0 both read as 0. */
  function FeeTotalOrZero(v: Option<Value>): (n: int)
    ensures ParseNumber(v).Some? ==> n == ParseNumber(v).value
    ensures ParseNumber(v).None? ==> n == 0
  {
    match ParseNumber(v)
    case Some(n) => n
    case None => 0
  }

  /** `dob: dob || ''` and the like for each profile field. */
  function ProfileDefaults(body: Record): (d: Record)
    ensures d.Keys == ProfileFields
    ensures forall f :: f in d ==> d[f] == OrElse(body, f, Str(""))
  {
    map f | f in ProfileFields :: OrElse(body, f, Str(""))
  }

  /** The stored record of a new student: identity and contact as given, the
      password hashed, profile fields defaulted to `''`, the fee total parsed,
      nothing paid yet and the fee pending; no other field (the last three
      facts are the lemmas below). */
  function NewStudent(body: Record, hash: Value -> string): (s: Record)
    requires StudentComplete(body)
    ensures Get(s, "studentId") == Get(body, "studentId") && Get(s, "name") == Get(body, "name")
    ensures Get(s, "parentPhone") == Get(body, "parentPhone")
    ensures Get(s, "password") == Some(Str(hash(body["password"])))
  {
    var d := ProfileDefaults(body);
    assert "studentId" !in d && "name" !in d && "parentPhone" !in d && "password" !in d;
    StudentCore(body, hash) + d
  }

  /** The fields of a new student other than the profile fields. */
  function StudentCore(body: Record, hash: Value -> string): (core: Record)
    requires StudentComplete(body)
    ensures core.Keys == {"studentId", "name", "parentPhone", "password", "feeTotal", "feePaid", "feeStatus"}
    ensures core["studentId"] == body["studentId"] && core["name"] == body["name"]
    ensures core["parentPhone"] == body["parentPhone"] && core["password"] == Str(hash(body["password"]))
    ensures core["feeTotal"] == Num(FeeTotalOrZero(Get(body, "feeTotal")))
    ensures core["feePaid"] == Num(0) && core["feeStatus"] == Str("pending")
  {
    map[
      "studentId" := body["studentId"],
      "name" := body["name"],
      "parentPhone" := body["parentPhone"],
      "password" := Str(hash(body["password"])),
      "feeTotal" := Num(FeeTotalOrZero(Get(body, "feeTotal"))),
      "feePaid" := Num(0),
      "feeStatus" := Str("pending")]
  }

  /** A new student has exactly the thirteen fields the route writes. */
  lemma NewStudentFields(body: Record, hash: Value -> string)
    requires StudentComplete(body)
    ensures NewStudent(body, hash).Keys ==
              {"studentId", "name", "parentPhone", "password", "feeTotal", "feePaid", "feeStatus"} + ProfileFields
  {
  }

  /** The profile fields not supplied, or supplied empty, default to `''`. */
  lemma NewStudentDefaults(body: Record, hash: Value -> string)
    requires StudentComplete(body)
    ensures forall f :: f in ProfileFields ==> Get(NewStudent(body, hash), f) == Some(OrElse(body, f, Str("")))
    ensures forall f :: f in ProfileFields && !Truthy(Get(body, f)) ==> Get(NewStudent(body, hash), f) == Some(Str(""))
  {
  }

  /** A new student owes the parsed fee total (0 if it does not parse), has
      paid nothing and is pending. */
  lemma NewStudentFees(body: Record, hash: Value -> string)
    requires StudentComplete(body)
    ensures Get(NewStudent(body, hash), "feeTotal") == Some(Num(FeeTotalOrZero(Get(body, "feeTotal"))))
    ensures Get(NewStudent(body, hash), "feePaid") == Some(Num(0))
    ensures Get(NewStudent(body, hash), "feeStatus") == Some(Str("pending"))
  {
  }

  /** `POST /api/admin/add-student`. Missing fields are refused first, then a
      taken `studentId`; either way nothing is written. Otherwise the new
      student is appended as the last one and answered without its password. */
  function AddStudent(db: Db, body: Record, hash: Value -> string): (reply: Reply<Record>)
    ensures !StudentComplete(body) ==> reply == Reply(Err(MissingFields), db)
    ensures StudentComplete(body) && Any(Read(db, Students), FieldIs("studentId", Get(body, "studentId"))) ==>
              reply == Reply(Err(Duplicate), db)
    ensures reply.result.Ok? <==>
              StudentComplete(body) && !Any(Read(db, Students), FieldIs("studentId", Get(body, "studentId")))
    ensures reply.result.Ok? ==>
              StudentComplete(body) && Read(reply.db, Students) == Read(db, Students) + [NewStudent(body, hash)]
    ensures reply.result.Ok? ==> reply.result.value == Without(NewStudent(body, hash), "password")
    ensures OnlyChanged(db, reply.db, Students)
  {
    if !StudentComplete(body) then Reply(Err(MissingFields), db)
    else if Any(Read(db, Students), FieldIs("studentId", Get(body, "studentId"))) then Reply(Err(Duplicate), db)
    else
      var s := NewStudent(body, hash);
      Reply(Ok(Without(s, "password")), Append(db, Students, s))
  }

  /** The stored record of a new teacher: the subject defaults to `''`. */
  function NewTeacher(body: Record, hash: Value -> string): (t: Record)
    requires TeacherComplete(body)
    ensures t.Keys == {"teacherId", "name", "subject", "password"}
    ensures Get(t, "teacherId") == Get(body, "teacherId") && Get(t, "name") == Get(body, "name")
    ensures Get(t, "subject") == Some(OrElse(body, "subject", Str("")))
    ensures Get(t, "password") == Some(Str(hash(body["password"])))
  {
    map[
      "teacherId" := body["teacherId"],
      "name" := body["name"],
      "subject" := OrElse(body, "subject", Str("")),
      "password" := Str(hash(body["password"]))]
  }

  /** `POST /api/admin/add-teacher`, with the same order of refusals as
      `add-student`. */
  function AddTeacher(db: Db, body: Record, hash: Value -> string): (reply: Reply<Record>)
    ensures !TeacherComplete(body) ==> reply == Reply(Err(MissingFields), db)
    ensures TeacherComplete(body) && Any(Read(db, Teachers), FieldIs("teacherId", Get(body, "teacherId"))) ==>
              reply == Reply(Err(Duplicate), db)
    ensures reply.result.Ok? <==>
              TeacherComplete(body) && !Any(Read(db, Teachers), FieldIs("teacherId", Get(body, "teacherId")))
    ensures reply.result.Ok? ==>
              TeacherComplete(body) && Read(reply.db, Teachers) == Read(db, Teachers) + [NewTeacher(body, hash)]
    ensures reply.result.Ok? ==> reply.result.value == Without(NewTeacher(body, hash), "password")
    ensures OnlyChanged(db, reply.db, Teachers)
  {
    if !TeacherComplete(body) then Reply(Err(MissingFields), db)
    else if Any(Read(db, Teachers), FieldIs("teacherId", Get(body, "teacherId"))) then Reply(Err(Duplicate), db)
    else
      var t := NewTeacher(body, hash);
      Reply(Ok(Without(t, "password")), Append(db, Teachers, t))
  }

  /** Refusing duplicates keeps the primary key unique. */
  lemma AddStudentKeepsKeyed(db: Db, body: Record, hash: Value -> string)
    requires Keyed(Read(db, Students), "studentId")
    ensures Keyed(Read(AddStudent(db, body, hash).db, Students), "studentId")
  {
    var reply := AddStudent(db, body, hash);
    if reply.result.Ok? {
      AppendKeyed(Read(db, Students), "studentId", NewStudent(body, hash));
    }
  }

  lemma AddTeacherKeepsKeyed(db: Db, body: Record, hash: Value -> string)
    requires Keyed(Read(db, Teachers), "teacherId")
    ensures Keyed(Read(AddTeacher(db, body, hash).db, Teachers), "teacherId")
  {
    var reply := AddTeacher(db, body, hash);
    if reply.result.Ok? {
      AppendKeyed(Read(db, Teachers), "teacherId", NewTeacher(body, hash));
    }
  }

  /** A new student is `'pending'` even when nothing is owed: its fee status
      agrees with its amounts exactly when the fee total is positive. */
  lemma NewStudentFeeStatus(body: Record, hash: Value -> string)
    requires StudentComplete(body)
    ensures FeeConsistent(NewStudent(body, hash)) <==> FeeTotalOrZero(Get(body, "feeTotal")) > 0
  {
    NewStudentFees(body, hash);
  }

  // ---------------------------------------------------------------------
  // Editing

  /** The patch `edit-student` applies: the request body without `studentId`
      and `password`, with `feeTotal` and `feePaid` run through `parseFloat`
      when supplied. */
  function StudentPatch(body: Record): (u: Record)
    ensures u.Keys == body.Keys - {"studentId", "password"}
    ensures forall f :: f in u && f != "feeTotal" && f != "feePaid" ==> u[f] == body[f]
    ensures forall f :: f in u && (f == "feeTotal" || f == "feePaid") ==> u[f] == NumberOrNull(ParseNumber(Get(body, f)))
  {
    var u := body - {"studentId", "password"};
    var u1 := if "feeTotal" in u then u["feeTotal" := NumberOrNull(ParseNumber(Get(body, "feeTotal")))] else u;
    if "feePaid" in u1 then u1["feePaid" := NumberOrNull(ParseNumber(Get(body, "feePaid")))] else u1
  }

  /** The patch `edit-teacher` applies: the request body without `teacherId`
      and `password`. */
  function TeacherPatch(body: Record): (u: Record)
    ensures u.Keys == body.Keys - {"teacherId", "password"}
    ensures forall f :: f in u ==> u[f] == body[f]
  {
    body - {"teacherId", "password"}
  }

  /** Merge `patch` into every record of `c` whose `key` is `id`. Not found
      exactly when no record has the id, and then nothing is written. Field by
      field: the patched fields take the patch's values on the matching
      records, and every other field of every record is kept. */
  function EditById(db: Db, c: Collection, key: string, id: string, patch: Record): (reply: Reply<()>)
    ensures reply.result.Ok? <==> Any(Read(db, c), ById(key, id))
    ensures reply.result.Err? ==> reply.result.error == NotFound && reply.db == db
    ensures |Read(reply.db, c)| == |Read(db, c)|
    ensures forall i :: 0 <= i < |Read(db, c)| && !ById(key, id)(Read(db, c)[i]) ==>
              Read(reply.db, c)[i] == Read(db, c)[i]
    ensures forall i, f :: 0 <= i < |Read(db, c)| && f !in patch ==>
              Get(Read(reply.db, c)[i], f) == Get(Read(db, c)[i], f)
    ensures forall i, f :: 0 <= i < |Read(db, c)| && ById(key, id)(Read(db, c)[i]) && f in patch ==>
              Get(Read(reply.db, c)[i], f) == Some(patch[f])
    ensures OnlyChanged(db, reply.db, c)
  {
    var (found, db') := Update(db, c, ById(key, id), patch);
    MergeIntoFields(Read(db, c), ById(key, id), patch);
    if found then Reply(Ok(()), db') else Reply(Err(NotFound), db)
  }

  /** `PUT /api/admin/edit-student/:id`. The id and the password of every
      student stay as they were, and so does every field the request does not
      supply, `feeStatus` included. */
  function EditStudent(db: Db, id: string, body: Record): (reply: Reply<()>)
    ensures reply.result.Ok? <==> Any(Read(db, Students), ById("studentId", id))
    ensures reply.result.Err? ==> reply.result.error == NotFound && reply.db == db
    ensures |Read(reply.db, Students)| == |Read(db, Students)|
    ensures forall i :: 0 <= i < |Read(db, Students)| && !ById("studentId", id)(Read(db, Students)[i]) ==>
              Read(reply.db, Students)[i] == Read(db, Students)[i]
    ensures forall i :: 0 <= i < |Read(db, Students)| ==>
              Get(Read(reply.db, Students)[i], "studentId") == Get(Read(db, Students)[i], "studentId") &&
              Get(Read(reply.db, Students)[i], "password") == Get(Read(db, Students)[i], "password")
    ensures forall i, f :: 0 <= i < |Read(db, Students)| && f !in body ==>
              Get(Read(reply.db, Students)[i], f) == Get(Read(db, Students)[i], f)
    ensures forall i, f :: 0 <= i < |Read(db, Students)| && ById("studentId", id)(Read(db, Students)[i]) &&
                           f in body && f != "studentId" && f != "password" && f != "feeTotal" && f != "feePaid" ==>
              Get(Read(reply.db, Students)[i], f) == Get(body, f)
    ensures forall i, f :: 0 <= i < |Read(db, Students)| && ById("studentId", id)(Read(db, Students)[i]) &&
                           f in body && (f == "feeTotal" || f == "feePaid") ==>
              Get(Read(reply.db, Students)[i], f) == Some(NumberOrNull(ParseNumber(Get(body, f))))
    ensures OnlyChanged(db, reply.db, Students)
  {
    var patch := StudentPatch(body);
    assert "studentId" !in patch && "password" !in patch;
    EditedFees(db, id, body);
    EditById(db, Students, "studentId", id, patch)
  }

  /** A supplied `feeTotal` or `feePaid` reaches every student with the id
      as `parseFloat` of the supplied value. */
  lemma EditedFees(db: Db, id: string, body: Record)
    ensures forall i, f :: 0 <= i < |Read(db, Students)| && ById("studentId", id)(Read(db, Students)[i]) &&
                           f in body && (f == "feeTotal" || f == "feePaid") ==>
              Get(Read(EditById(db, Students, "studentId", id, StudentPatch(body)).db, Students)[i], f) ==
              Some(NumberOrNull(ParseNumber(Get(body, f))))
  {
    var patch := StudentPatch(body);
    assert forall f :: f in body && (f == "feeTotal" || f == "feePaid") ==>
             f in patch && patch[f] == NumberOrNull(ParseNumber(Get(body, f)));
  }

  /** `PUT /api/admin/edit-teacher/:id`: the same guarantees for teachers. */
  function EditTeacher(db: Db, id: string, body: Record): (reply: Reply<()>)
    ensures reply.result.Ok? <==> Any(Read(db, Teachers), ById("teacherId", id))
    ensures reply.result.Err? ==> reply.result.error == NotFound && reply.db == db
    ensures |Read(reply.db, Teachers)| == |Read(db, Teachers)|
    ensures forall i :: 0 <= i < |Read(db, Teachers)| && !ById("teacherId", id)(Read(db, Teachers)[i]) ==>
              Read(reply.db, Teachers)[i] == Read(db, Teachers)[i]
    ensures forall i :: 0 <= i < |Read(db, Teachers)| ==>
              Get(Read(reply.db, Teachers)[i], "teacherId") == Get(Read(db, Teachers)[i], "teacherId") &&
              Get(Read(reply.db, Teachers)[i], "password") == Get(Read(db, Teachers)[i], "password")
    ensures forall i, f :: 0 <= i < |Read(db, Teachers)| && f !in body ==>
              Get(Read(reply.db, Teachers)[i], f) == Get(Read(db, Teachers)[i], f)
    ensures forall i, f :: 0 <= i < |Read(db, Teachers)| && ById("teacherId", id)(Read(db, Teachers)[i]) &&
                           f in body && f != "teacherId" && f != "password" ==>
              Get(Read(reply.db, Teachers)[i], f) == Get(body, f)
    ensures OnlyChanged(db, reply.db, Teachers)
  {
    var patch := TeacherPatch(body);
    assert "teacherId" !in patch && "password" !in patch;
    EditById(db, Teachers, "teacherId", id, patch)
  }

  /** Since the patch never carries the key, the records an edit matched are
      still the ones it matches afterwards, and a repeated edit changes
      nothing more. */
  lemma EditIdempotent(db: Db, c: Collection, key: string, id: string, patch: Record)
    requires key !in patch
    ensures var once := EditById(db, c, key, id, patch).db;
            Read(EditById(once, c, key, id, patch).db, c) == Read(once, c)
  {
    var rs := Read(db, c);
    var p := ById(key, id);
    assert Read(EditById(db, c, key, id, patch).db, c) == FileOps.MergeInto(rs, p, patch);
    MergeIntoTwice(rs, key, id, patch);
  }

  /** Merging a patch without the key a second time changes nothing. */
  lemma MergeIntoTwice(rs: seq<Record>, key: string, id: string, patch: Record)
    requires key !in patch
    ensures var once := FileOps.MergeInto(rs, ById(key, id), patch);
            FileOps.MergeInto(once, ById(key, id), patch) == once
  {
    var p := ById(key, id);
    var once := FileOps.MergeInto(rs, p, patch);
    var twice := FileOps.MergeInto(once, p, patch);
    forall i | 0 <= i < |rs|
      ensures twice[i] == once[i]
    {
      if p(rs[i]) {
        assert once[i] == Merge(rs[i], patch);
        assert Get(once[i], key) == Get(rs[i], key);
        assert twice[i] == Merge(once[i], patch);
        assert Merge(once[i], patch) == once[i];
      } else {
        assert once[i] == rs[i];
      }
    }
  }

  // ---------------------------------------------------------------------
  // Deleting

  /** Remove every record of `c` whose `key` is `id`, keeping the rest in
      order. Not found exactly when no record has the id, and then nothing is
      written; afterwards no record has it. */
  function DeleteById(db: Db, c: Collection, key: string, id: string): (reply: Reply<()>)
    ensures reply.result.Ok? <==> Any(Read(db, c), ById(key, id))
    ensures reply.result.Err? ==> reply.result.error == NotFound && reply.db == db
    ensures Read(reply.db, c) == Filter(Read(db, c), Not(ById(key, id)))
    ensures !Any(Read(reply.db, c), ById(key, id))
    ensures OnlyChanged(db, reply.db, c)
  {
    var (found, db') := Delete(db, c, ById(key, id));
    assert !Any(Read(db', c), ById(key, id)) by {
      var kept := Read(db', c);
      forall i | 0 <= i < |kept|
        ensures !ById(key, id)(kept[i])
      {
        assert kept[i] in kept;
      }
    }
    if found then Reply(Ok(()), db') else Reply(Err(NotFound), db)
  }

  /** `DELETE /api/admin/delete-student/:id`. */
  function DeleteStudent(db: Db, id: string): (reply: Reply<()>)
    ensures reply.result.Ok? <==> Any(Read(db, Students), ById("studentId", id))
    ensures reply.result.Err? ==> reply.result.error == NotFound && reply.db == db
    ensures Read(reply.db, Students) == Filter(Read(db, Students), Not(ById("studentId", id)))
    ensures forall s :: s in Read(reply.db, Students) <==> s in Read(db, Students) && Get(s, "studentId") != Some(Str(id))
    ensures OnlyChanged(db, reply.db, Students)
  {
    DeleteById(db, Students, "studentId", id)
  }

  /** `DELETE /api/admin/delete-teacher/:id`. */
  function DeleteTeacher(db: Db, id: string): (reply: Reply<()>)
    ensures reply.result.Ok? <==> Any(Read(db, Teachers), ById("teacherId", id))
    ensures reply.result.Err? ==> reply.result.error == NotFound && reply.db == db
    ensures Read(reply.db, Teachers) == Filter(Read(db, Teachers), Not(ById("teacherId", id)))
    ensures forall t :: t in Read(reply.db, Teachers) <==> t in Read(db, Teachers) && Get(t, "teacherId") != Some(Str(id))
    ensures OnlyChanged(db, reply.db, Teachers)
  {
    DeleteById(db, Teachers, "teacherId", id)
  }

  /** Deleting the same id twice: the second request finds nothing. */
  lemma DeleteTwice(db: Db, c: Collection, key: string, id: string)
    ensures var once := DeleteById(db, c, key, id).db;
            DeleteById(once, c, key, id) == Reply(Err(NotFound), once)
  {
  }

  /** Edits and deletes keep the primary key unique. */
  lemma EditDeleteKeepKeyed(db: Db, c: Collection, key: string, id: string, patch: Record)
    requires key !in patch
    requires Keyed(Read(db, c), key)
    ensures Keyed(Read(EditById(db, c, key, id, patch).db, c), key)
    ensures Keyed(Read(DeleteById(db, c, key, id).db, c), key)
  {
    FilterKeyed(Read(db, c), key, Not(ById(key, id)));
    var rs := Read(db, c);
    var rs' := Read(EditById(db, c, key, id, patch).db, c);
    forall i, j | 0 <= i < |rs'| && 0 <= j < |rs'| && i != j
      ensures Get(rs'[i], key) != Get(rs'[j], key)
    {
      assert Get(rs'[i], key) == Get(rs[i], key) && Get(rs'[j], key) == Get(rs[j], key);
    }
  }

  /** Adding a student and deleting it again by its id restores every
      collection. */
  lemma AddThenDelete(db: Db, body: Record, hash: Value -> string, id: string)
    requires Get(body, "studentId") == Some(Str(id))
    requires AddStudent(db, body, hash).result.Ok?
    ensures var added := AddStudent(db, body, hash).db;
            forall c :: Read(DeleteStudent(added, id).db, c) == Read(db, c)
  {
    var rs := Read(db, Students);
    var s := NewStudent(body, hash);
    var p := Not(ById("studentId", id));
    assert ById("studentId", id) == FieldIs("studentId", Get(body, "studentId"));
    FilterAppend(rs, [s], p);
    assert Filter([s], p) == [];
    FilterKeepsAll(rs, p);
  }

  /** A student just added is the one the student dashboard finds under its id. */
  lemma AddedStudentIsFound(db: Db, body: Record, hash: Value -> string, id: string)
    requires Get(body, "studentId") == Some(Str(id))
    requires AddStudent(db, body, hash).result.Ok?
    ensures Find(Read(AddStudent(db, body, hash).db, Students), ById("studentId", id)) == Some(NewStudent(body, hash))
  {
    var s := NewStudent(body, hash);
    assert ById("studentId", id) == FieldIs("studentId", Get(body, "studentId"));
    FindAppend(Read(db, Students), [s], ById("studentId", id));
  }

  // ---------------------------------------------------------------------
  // Listing

  /** One row of `GET /api/admin/students`: the student without its password,
      with the attendance percentage, average marks and fee balance the
      student's own dashboard shows. */
  function Summary(db: Db, student: Record): (r: Record)
    ensures "password" !in r
    ensures forall f :: f !in {"password", "attendancePercentage", "avgMarks", "feeBalance"} ==>
              Get(r, f) == Get(student, f)
  {
    var key := Get(student, "studentId");
    var attendance := Filter(Read(db, Attendance), OfStudent(key));
    var marks := Filter(Read(db, Marks), OfStudent(key));
    Without(student, "password") + map[
      "attendancePercentage" := Num(StatsOf(attendance).percentage),
      "avgMarks" := Num(AverageMarks(marks)),
      "feeBalance" := Num(FeeBalance(student))]
  }

  /** The admin list and the student's own dashboard agree: the summary's
      attendance percentage, average marks and fee balance are those of the
      student's profile. */
  lemma SummaryAgreesWithProfile(db: Db, student: Record)
    ensures var view := ProfileOf(db, student, Get(student, "studentId"));
            var r := Summary(db, student);
            && Get(r, "attendancePercentage") == Some(Num(view.stats.percentage))
            && Get(r, "avgMarks") == Some(Num(AverageMarks(view.marks)))
            && Get(r, "feeBalance") == Some(Num(view.feeBalance))
  {
  }

  /** `GET /api/admin/students`: one summary per student, in file order. */
  method StudentsSummary(db: Db) returns (out: seq<Record>)
    ensures |out| == |Read(db, Students)|
    ensures forall i :: 0 <= i < |out| ==> out[i] == Summary(db, Read(db, Students)[i])
    ensures forall i :: 0 <= i < |out| ==> "password" !in out[i]
  {
    out := MapAll(Read(db, Students), (s: Record) => Summary(db, s));
  }

  /** Every summary's percentage lies within 0..100, and its average within
      the range of the student's marks. */
  lemma SummaryBounds(db: Db, student: Record, lo: int, hi: int)
    requires var marks := Filter(Read(db, Marks), OfStudent(Get(student, "studentId")));
             |marks| > 0 && forall i :: 0 <= i < |marks| ==> lo <= AsNumber(Get(marks[i], "marks")) <= hi
    ensures Get(Summary(db, student), "attendancePercentage").Some?
    ensures var pct := Get(Summary(db, student), "attendancePercentage").value;
            pct.Num? && 0 <= pct.n <= 100
    ensures var avg := Get(Summary(db, student), "avgMarks").value;
            avg.Num? && lo <= avg.n <= hi
  {
    AverageWithin(Filter(Read(db, Marks), OfStudent(Get(student, "studentId"))), lo, hi);
  }

  /** `GET /api/admin/teachers`: every teacher, in order, without passwords. */
  function TeacherList(db: Db): (ts: seq<Record>)
    ensures |ts| == |Read(db, Teachers)|
    ensures forall i :: 0 <= i < |ts| ==> "password" !in ts[i]
    ensures forall i, f :: 0 <= i < |ts| && f != "password" ==> Get(ts[i], f) == Get(Read(db, Teachers)[i], f)
  {
    StripPasswords(Read(db, Teachers))
  }
}

=== FILE: auth.dfy ===
/** Login for every role and the password change for students and teachers.
    bcrypt's `hashPassword` and `comparePassword` are the parameters `hash`
    and `matches`. */
module Auth {
  import opened Values
  import opened Seqs
  import opened Store
  import opened Profiles
  import Parent
  import FileOps

  /** A successful login: the role and the user as the client receives it. */
  datatype Session = Session(role: Value, user: Record)

  /** The fixed administrator account. */
  const AdminUser: Record := map["id" := Str("admin"), "name" := Str("Administrator")]

  /** Where a role's accounts live: the collection and the field holding the
      login id. The administrator has no collection. */
  function Accounts(role: Value): (a: Option<(Collection, string)>)
    ensures role == Str("teacher") <==> a == Some((Teachers, "teacherId"))
    ensures role == Str("student") <==> a == Some((Students, "studentId"))
    ensures role == Str("parent") <==> a == Some((Students, "parentPhone"))
    ensures a.None? <==> role != Str("teacher") && role != Str("student") && role != Str("parent")
  {
    match role
    case Str(r) =>
      if r == "teacher" then Some((Teachers, "teacherId"))
      else if r == "student" then Some((Students, "studentId"))
      else if r == "parent" then Some((Students, "parentPhone"))
      else None
    case _ => None
  }

  predicate LoginComplete(body: Record) {
    Truthy(Get(body, "role")) && Truthy(Get(body, "id")) && Truthy(Get(body, "password"))
  }

  /** `record[idField] === id`. */
  function HasLogin(field: string, body: Record): Record -> bool {
    FieldIs(field, Get(body, "id"))
  }

  /** `POST /api/auth/login`. */
  function Login(db: Db, body: Record, matches: (Value, Option<Value>) -> bool): (r: Result<Session>)
    ensures !LoginComplete(body) ==> r == Err(MissingFields)
    ensures LoginComplete(body) && Get(body, "role") == Some(Str("admin")) ==>
              (if Get(body, "id") == Some(Str("admin")) && Get(body, "password") == Some(Str("admin123"))
               then r == Ok(Session(Str("admin"), AdminUser))
               else r == Err(InvalidCredentials))
    ensures LoginComplete(body) && Get(body, "role") != Some(Str("admin")) && Accounts(body["role"]).None? ==>
              r == Err(InvalidRole)
    ensures LoginComplete(body) && Get(body, "role") != Some(Str("admin")) && Accounts(body["role"]).Some? ==>
              var (c, field) := Accounts(body["role"]).value;
              LoginAt(Read(db, c), field, body, matches, r)
  {
    if !LoginComplete(body) then Err(MissingFields)
    else if body["role"] == Str("admin") then
      if Get(body, "id") == Some(Str("admin")) && Get(body, "password") == Some(Str("admin123"))
      then Ok(Session(Str("admin"), AdminUser))
      else Err(InvalidCredentials)
    else match Accounts(body["role"])
      case None => Err(InvalidRole)
      case Some((c, field)) =>
        match Find(Read(db, c), HasLogin(field, body))
        case None => Err(NotFound)
        case Some(user) =>
          if !matches(body["password"], Get(user, "password")) then Err(InvalidPassword)
          else Ok(Session(body["role"], Without(user, "password")))
  }

  /** The outcome of a login against one collection: not found exactly when
      no account has the id; otherwise the first such account decides, by its
      password alone, and is answered without the password. */
  ghost predicate LoginAt(rs: seq<Record>, field: string, body: Record,
                          matches: (Value, Option<Value>) -> bool, r: Result<Session>)
    requires "password" in body && "role" in body
  {
    && (r == Err(NotFound) <==> !Any(rs, HasLogin(field, body)))
    && (Any(rs, HasLogin(field, body)) ==>
          exists k :: FirstAt(rs, HasLogin(field, body), k) &&
            (if matches(body["password"], Get(rs[k], "password"))
             then r == Ok(Session(body["role"], Without(rs[k], "password")))
             else r == Err(InvalidPassword)))
  }

  /** The administrator's login depends on the request alone. */
  lemma AdminLoginReadsNothing(db1: Db, db2: Db, body: Record, matches: (Value, Option<Value>) -> bool)
    requires Get(body, "role") == Some(Str("admin"))
    ensures Login(db1, body, matches) == Login(db2, body, matches)
  {
  }

  /** A parent logs in as the same student the parent dashboard shows. */
  lemma ParentLoginIsParentView(db: Db, phone: string, password: Value, matches: (Value, Option<Value>) -> bool, body: Record)
    requires body == map["role" := Str("parent"), "id" := Str(phone), "password" := password]
    requires Login(db, body, matches).Ok?
    ensures Parent.ParentView(db, phone).Ok?
    ensures Login(db, body, matches).value.user == Parent.ParentView(db, phone).value.student
  {
    assert HasLogin("parentPhone", body) == Parent.OfParent(phone);
  }

  // ---------------------------------------------------------------------
  // Changing the password

  predicate ChangeComplete(body: Record) {
    Truthy(Get(body, "role")) && Truthy(Get(body, "id")) &&
    Truthy(Get(body, "oldPassword")) && Truthy(Get(body, "newPassword"))
  }

  /** The role may change its password: students and teachers only. */
  predicate MayChange(body: Record) {
    ChangeComplete(body) && (body["role"] == Str("student") || body["role"] == Str("teacher"))
  }

  /** The collection and id field of the account whose password changes. */
  function Target(body: Record): (Collection, string)
    requires MayChange(body)
  {
    Accounts(body["role"]).value
  }

  /** The patch that replaces the password by the new one's hash. */
  function NewHash(body: Record, hash: Value -> string): (patch: Record)
    requires "newPassword" in body
    ensures patch.Keys == {"password"}
  {
    map["password" := Str(hash(body["newPassword"]))]
  }

  /** `PUT /api/auth/change-password`. Only students and teachers may change
      their password. The first account with the id must accept the old
      password; then the new hash is written into every account with the id.
      The update cannot fail, because the account it updates was just found. */
  function ChangePassword(db: Db, body: Record, hash: Value -> string,
                          matches: (Value, Option<Value>) -> bool): (reply: Reply<()>)
    ensures !ChangeComplete(body) ==> reply == Reply(Err(MissingFields), db)
    ensures ChangeComplete(body) && !MayChange(body) ==> reply == Reply(Err(InvalidRole), db)
    ensures reply.result.Err? ==> reply.db == db && reply.result.error != UpdateFailed
    ensures reply.result.Ok? ==> MayChange(body) && OnlyChanged(db, reply.db, Target(body).0)
    ensures reply.result.Ok? ==>
              Read(reply.db, Target(body).0) ==
              FileOps.MergeInto(Read(db, Target(body).0), HasLogin(Target(body).1, body), NewHash(body, hash))
  {
    if !ChangeComplete(body) then Reply(Err(MissingFields), db)
    else if !MayChange(body) then Reply(Err(InvalidRole), db)
    else
      var (c, field) := Target(body);
      var p := HasLogin(field, body);
      match Find(Read(db, c), p)
      case None => Reply(Err(NotFound), db)
      case Some(user) =>
        if !matches(body["oldPassword"], Get(user, "password")) then Reply(Err(InvalidPassword), db)
        else
          var (updated, db') := Update(db, c, p, NewHash(body, hash));
          if updated then Reply(Ok(()), db') else Reply(Err(UpdateFailed), db)
  }

  /** `rs'` is `rs` with the password of every match of `p` set to `h`: the
      same accounts in the same order, no other field changed, and the
      accounts that do not match untouched. */
  ghost predicate PasswordSet(rs: seq<Record>, rs': seq<Record>, p: Record -> bool, h: Value) {
    && |rs'| == |rs|
    && (forall i :: 0 <= i < |rs| && p(rs[i]) ==> Get(rs'[i], "password") == Some(h))
    && (forall i, f :: 0 <= i < |rs| && f != "password" ==> Get(rs'[i], f) == Get(rs[i], f))
    && (forall i :: 0 <= i < |rs| && !p(rs[i]) ==> rs'[i] == rs[i])
  }

  lemma MergePassword(rs: seq<Record>, p: Record -> bool, h: Value)
    ensures PasswordSet(rs, FileOps.MergeInto(rs, p, map["password" := h]), p, h)
  {
    MergeIntoFields(rs, p, map["password" := h]);
  }

  /** What a successful change did to the accounts: every account with the id
      now holds the new hash, no other field of any account changed, and the
      accounts without the id are untouched. */
  lemma PasswordChanged(db: Db, body: Record, hash: Value -> string, matches: (Value, Option<Value>) -> bool)
    requires ChangePassword(db, body, hash, matches).result.Ok?
    ensures Target(body).1 != "password"
    ensures PasswordSet(Read(db, Target(body).0), Read(ChangePassword(db, body, hash, matches).db, Target(body).0),
                        HasLogin(Target(body).1, body), Str(hash(body["newPassword"])))
  {
    MergePassword(Read(db, Target(body).0), HasLogin(Target(body).1, body), Str(hash(body["newPassword"])));
  }

  /** Not found exactly when no account has the id; otherwise the first
      account with the id decides by its password, and a refusal writes
      nothing. */
  lemma ChangePasswordRefusals(db: Db, body: Record, hash: Value -> string, matches: (Value, Option<Value>) -> bool)
    requires MayChange(body)
    ensures ChangePassword(db, body, hash, matches).result == Err(NotFound) <==>
              !Any(Read(db, Target(body).0), HasLogin(Target(body).1, body))
    ensures Any(Read(db, Target(body).0), HasLogin(Target(body).1, body)) ==>
              exists k :: FirstAt(Read(db, Target(body).0), HasLogin(Target(body).1, body), k) &&
                (ChangePassword(db, body, hash, matches).result.Ok? <==>
                 matches(body["oldPassword"], Get(Read(db, Target(body).0)[k], "password")))
  {
  }

  /** With a hash that its compare accepts, the new password logs in after a
      change. */
  lemma ChangeThenLogin(db: Db, body: Record, hash: Value -> string, matches: (Value, Option<Value>) -> bool)
    requires forall v :: matches(v, Some(Str(hash(v))))
    requires ChangePassword(db, body, hash, matches).result.Ok?
    ensures var login := map["role" := body["role"], "id" := body["id"], "password" := body["newPassword"]];
            Login(ChangePassword(db, body, hash, matches).db, login, matches).Ok?
  {
    var login := map["role" := body["role"], "id" := body["id"], "password" := body["newPassword"]];
    assert HasLogin(Target(body).1, login) == HasLogin(Target(body).1, body);
    assert Accounts(login["role"]) == Some(Target(body));
    ChangedAccountsAcceptNew(db, body, hash, matches);
    LoginSucceeds(ChangePassword(db, body, hash, matches).db, login, matches);
  }

  /** After a change the id is still held, and every account holding it
      accepts the new password. */
  lemma ChangedAccountsAcceptNew(db: Db, body: Record, hash: Value -> string, matches: (Value, Option<Value>) -> bool)
    requires forall v :: matches(v, Some(Str(hash(v))))
    requires ChangePassword(db, body, hash, matches).result.Ok?
    ensures MayChange(body)
    ensures var rs' := Read(ChangePassword(db, body, hash, matches).db, Target(body).0);
            && Any(rs', HasLogin(Target(body).1, body))
            && forall k :: 0 <= k < |rs'| && HasLogin(Target(body).1, body)(rs'[k]) ==>
                 matches(body["newPassword"], Get(rs'[k], "password"))
  {
    var field := Target(body).1;
    var rs' := Read(ChangePassword(db, body, hash, matches).db, Target(body).0);
    PasswordChanged(db, body, hash, matches);
    ChangePasswordRefusals(db, body, hash, matches);
    SetPasswordFindsIt(Read(db, Target(body).0), rs', field, Get(body, "id"), Str(hash(body["newPassword"])));
    assert matches(body["newPassword"], Some(Str(hash(body["newPassword"]))));
  }

  /** A login finds its account, and every account with the id accepts the
      password: the login succeeds. */
  lemma LoginSucceeds(db: Db, login: Record, matches: (Value, Option<Value>) -> bool)
    requires LoginComplete(login) && login["role"] != Str("admin") && Accounts(login["role"]).Some?
    requires Any(Read(db, Accounts(login["role"]).value.0), HasLogin(Accounts(login["role"]).value.1, login))
    requires forall k :: 0 <= k < |Read(db, Accounts(login["role"]).value.0)| &&
                         HasLogin(Accounts(login["role"]).value.1, login)(Read(db, Accounts(login["role"]).value.0)[k]) ==>
                         matches(login["password"], Get(Read(db, Accounts(login["role"]).value.0)[k], "password"))
    ensures Login(db, login, matches).Ok?
  {
  }

  /** After the passwords of the holders of a login id are set, the id is
      still held and every holder has the new password. */
  lemma SetPasswordFindsIt(rs: seq<Record>, rs': seq<Record>, field: string, id: Option<Value>, h: Value)
    requires field != "password"
    requires PasswordSet(rs, rs', FieldIs(field, id), h)
    requires Any(rs, FieldIs(field, id))
    ensures Any(rs', FieldIs(field, id))
    ensures forall k :: 0 <= k < |rs'| && FieldIs(field, id)(rs'[k]) ==> Get(rs'[k], "password") == Some(h)
  {
    var k :| 0 <= k < |rs| && FieldIs(field, id)(rs[k]);
    assert Get(rs'[k], field) == Get(rs[k], field);
    forall j | 0 <= j < |rs'| && FieldIs(field, id)(rs'[j])
      ensures Get(rs'[j], "password") == Some(h)
    {
      assert Get(rs'[j], field) == Get(rs[j], field);
    }
  }

  /** Changing passwords keeps login ids unique. */
  lemma ChangePasswordKeepsKeyed(db: Db, body: Record, hash: Value -> string, matches: (Value, Option<Value>) -> bool)
    requires MayChange(body)
    requires Keyed(Read(db, Target(body).0), Target(body).1)
    ensures Keyed(Read(ChangePassword(db, body, hash, matches).db, Target(body).0), Target(body).1)
  {
    var reply := ChangePassword(db, body, hash, matches);
    if reply.result.Ok? {
      var c := Target(body).0;
      var field := Target(body).1;
      var rs := Read(db, c);
      var rs' := Read(reply.db, c);
      PasswordChanged(db, body, hash, matches);
      forall i, j | 0 <= i < |rs'| && 0 <= j < |rs'| && i != j
        ensures Get(rs'[i], field) != Get(rs'[j], field)
      {
        assert Get(rs'[i], field) == Get(rs[i], field) && Get(rs'[j], field) == Get(rs[j], field);
      }
    }
  }
}

=== FILE: fileops.dfy ===
/** The line-delimited JSON record store, at the level of file text.

    A collection file holds one serialised record per line. The file either
    does not exist (`None`) or holds some text. `JSON.stringify` and
    `JSON.parse` are the `Codec`; the store relies only on the laws stated by
    `Lawful`, which hold of JSON's serialisation of plain objects.
 */
module FileOps {
  import opened Values
  import opened Text
  import opened Seqs

  type File = Option<string>

  datatype Codec = Codec(stringify: Record -> string, parse: string -> Option<Record>)

  /** A serialised record is one solid line that parses back to the record. */
  ghost predicate Lawful(c: Codec) {
    forall r :: Solid(c.stringify(r)) && '\n' !in c.stringify(r) && c.parse(c.stringify(r)) == Some(r)
  }

  /** The outcome of a read-transform-write operation: whether it matched, and
      the file afterwards. */
  datatype Written = Written(matched: bool, file: File)

  /** Every line that parses, in order; lines that fail to parse are dropped. */
  function ParseLines(c: Codec, ls: seq<string>): (rs: seq<Record>)
    ensures |rs| <= |ls|
    ensures |rs| == |ls| <==> forall j :: 0 <= j < |ls| ==> c.parse(ls[j]).Some?
    ensures forall i :: 0 <= i < |rs| ==> exists j :: 0 <= j < |ls| && c.parse(ls[j]) == Some(rs[i])
  {
    if |ls| == 0 then []
    else
      var rest := ParseLines(c, ls[1..]);
      assert forall j :: 0 < j < |ls| ==> ls[j] == ls[1..][j - 1];
      match c.parse(ls[0])
      case Some(r) => [r] + rest
      case None => rest
  }

  /** `readFile`: no file, or a file of white space only, holds no records. */
  function ReadFile(c: Codec, f: File): (rs: seq<Record>)
    ensures f.None? ==> rs == []
    ensures f.Some? ==> forall i :: 0 <= i < |rs| ==>
              exists j :: 0 <= j < |Split(Trim(f.value))| && c.parse(Split(Trim(f.value))[j]) == Some(rs[i])
  {
    match f
    case None => []
    case Some(t) =>
      var content := Trim(t);
      if content == "" then [] else
        var ls := Split(content);
        var rs := ParseLines(c, ls);
        assert ls == Split(Trim(f.value));
        assert forall i :: 0 <= i < |rs| ==>
                 exists j :: 0 <= j < |Split(Trim(f.value))| && c.parse(Split(Trim(f.value))[j]) == Some(rs[i]);
        rs
  }

  function Lines(c: Codec, rs: seq<Record>): (ls: seq<string>)
    ensures |ls| == |rs|
    ensures forall i :: 0 <= i < |rs| ==> ls[i] == c.stringify(rs[i])
  {
    if |rs| == 0 then [] else [c.stringify(rs[0])] + Lines(c, rs[1..])
  }

  /** `writeFile`: the whole file replaced by one line per record and a final newline. */
  function WriteFile(c: Codec, rs: seq<Record>): (w: File)
    ensures w.Some? && |w.value| > 0 && w.value[|w.value| - 1] == '\n'
    ensures rs == [] ==> w == Some("\n")
  {
    assert rs == [] ==> Join(Lines(c, rs)) + "\n" == "\n";
    Some(Join(Lines(c, rs)) + "\n")
  }

  /** `appendFile`: one more line at the end; a missing file is created. */
  function AppendFile(c: Codec, f: File, r: Record): (a: File)
    ensures a.Some? && |a.value| > 0 && a.value[|a.value| - 1] == '\n'
    ensures f.Some? ==> f.value <= a.value && a.value[|f.value|..] == c.stringify(r) + "\n"
    ensures f.None? ==> a == Some(c.stringify(r) + "\n")
  {
    var prior := match f case None => "" case Some(t) => t;
    assert f.None? ==> prior + c.stringify(r) == c.stringify(r);
    Some(prior + c.stringify(r) + "\n")
  }

  /** `updateRecord`: merge `patch` into every record matching `p`; write only
      when something matched. */
  function UpdateRecord(c: Codec, f: File, p: Record -> bool, patch: Record): (w: Written)
    ensures w.matched <==> Any(ReadFile(c, f), p)
    ensures !w.matched ==> w.file == f
  {
    var rs := ReadFile(c, f);
    if Any(rs, p) then Written(true, WriteFile(c, MergeInto(rs, p, patch))) else Written(false, f)
  }

  /** The records after merging `patch` into every match of `p`. */
  function MergeInto(rs: seq<Record>, p: Record -> bool, patch: Record): (out: seq<Record>)
    ensures |out| == |rs|
    ensures forall i :: 0 <= i < |rs| && p(rs[i]) ==> out[i] == Merge(rs[i], patch)
    ensures forall i :: 0 <= i < |rs| && !p(rs[i]) ==> out[i] == rs[i]
  {
    MapWhere(rs, p, (r: Record) => Merge(r, patch))
  }

  /** `deleteRecord`: drop every record matching `p`; write only when the
      collection shrank. */
  function DeleteRecord(c: Codec, f: File, p: Record -> bool): (w: Written)
    ensures w.matched <==> Any(ReadFile(c, f), p)
    ensures !w.matched ==> w.file == f
  {
    var rs := ReadFile(c, f);
    var kept := Filter(rs, Not(p));
    if |kept| < |rs| then Written(true, WriteFile(c, kept)) else Written(false, f)
  }

  /** `findRecord`: the first record in file order satisfying `p`, or null. */
  function FindRecord(c: Codec, f: File, p: Record -> bool): (r: Option<Record>)
    ensures r.None? <==> !Any(ReadFile(c, f), p)
    ensures r.Some? ==> exists k :: FirstAt(ReadFile(c, f), p, k) && ReadFile(c, f)[k] == r.value
  {
    Find(ReadFile(c, f), p)
  }

  /** `findRecords`: every record when no predicate is given, otherwise the
      matching ones in file order. */
  function FindRecords(c: Codec, f: File, p: Option<Record -> bool>): (rs: seq<Record>)
    ensures p.None? ==> rs == ReadFile(c, f)
    ensures p.Some? ==> rs == Filter(ReadFile(c, f), p.value)
    ensures p.Some? ==> forall r :: r in rs <==> r in ReadFile(c, f) && p.value(r)
  {
    match p
    case None => ReadFile(c, f)
    case Some(q) => Filter(ReadFile(c, f), q)
  }

  /** Reading a file keeps every line that parses, in order, and drops the
      others without stopping: the lines of a concatenation read as the
      concatenation of what each part reads as. */
  lemma {:induction false} ParseLinesAppend(c: Codec, xs: seq<string>, ys: seq<string>)
    ensures ParseLines(c, xs + ys) == ParseLines(c, xs) + ParseLines(c, ys)
  {
    if |xs| == 0 {
      assert xs + ys == ys;
    } else {
      assert (xs + ys)[1..] == xs[1..] + ys;
      assert (xs + ys)[0] == xs[0];
      ParseLinesAppend(c, xs[1..], ys);
    }
  }

  lemma ParseLine(c: Codec, line: string)
    ensures ParseLines(c, [line]) == match c.parse(line) case Some(r) => [r] case None => []
  {
  }

  lemma {:induction false} ParseLinesOfRecords(c: Codec, rs: seq<Record>)
    requires Lawful(c)
    ensures ParseLines(c, Lines(c, rs)) == rs
  {
    if |rs| > 0 {
      ParseLinesOfRecords(c, rs[1..]);
      assert Lines(c, rs)[1..] == Lines(c, rs[1..]);
    }
  }

  /** A missing file, and a file that is empty after trimming, hold no records. */
  lemma ReadBlank(c: Codec, t: string)
    requires AllSpace(t)
    ensures ReadFile(c, Some(t)) == []
    ensures ReadFile(c, None) == []
  {
    TrimBlank(t);
  }

  /** Text as the store itself leaves it: empty, a lone newline (an empty
      collection written out), or ending in a newline right after a solid
      character. Every write and every append leaves a file like this. */
  predicate Tidy(f: File) {
    match f
    case None => true
    case Some(t) => t == "" || t == "\n" || (|t| >= 2 && t[|t| - 1] == '\n' && !IsSpace(t[|t| - 2]))
  }

  lemma LinesAreSolid(c: Codec, rs: seq<Record>)
    requires Lawful(c)
    ensures forall i :: 0 <= i < |rs| ==> Solid(Lines(c, rs)[i]) && '\n' !in Lines(c, rs)[i]
  {
    var ls := Lines(c, rs);
    forall i | 0 <= i < |rs| ensures Solid(ls[i]) && '\n' !in ls[i] {
      assert ls[i] == c.stringify(rs[i]);
    }
  }

  /** Writing the records out and reading them back gives the same records. */
  lemma WriteThenRead(c: Codec, rs: seq<Record>)
    requires Lawful(c)
    ensures ReadFile(c, WriteFile(c, rs)) == rs
    ensures Tidy(WriteFile(c, rs))
  {
    if |rs| == 0 {
      assert Join(Lines(c, rs)) == "";
      assert "" + "\n" == "\n";
      ReadBlank(c, "\n");
    } else {
      LinesAreSolid(c, rs);
      WriteSolidLines(c, Lines(c, rs));
      ParseLinesOfRecords(c, rs);
    }
  }

  /** Text made of solid lines joined and ended by a newline reads back as
      those lines, and is tidy. */
  lemma WriteSolidLines(c: Codec, ls: seq<string>)
    requires |ls| >= 1
    requires forall i :: 0 <= i < |ls| ==> Solid(ls[i]) && '\n' !in ls[i]
    ensures ReadFile(c, Some(Join(ls) + "\n")) == ParseLines(c, ls)
    ensures Tidy(Some(Join(ls) + "\n"))
  {
    var j := Join(ls);
    assert Solid(j) by {
      JoinSolid(ls);
    }
    TrimLine(j);
    assert Split(j) == ls by {
      SplitJoin(ls);
    }
    var t := j + "\n";
    assert t[|t| - 2] == j[|j| - 1];
  }

  /** After appending a record to a tidy file, reading gives the earlier
      records followed by the new one, and the file stays tidy. */
  lemma AppendThenRead(c: Codec, f: File, r: Record)
    requires Lawful(c)
    requires Tidy(f)
    ensures ReadFile(c, AppendFile(c, f, r)) == ReadFile(c, f) + [r]
    ensures Tidy(AppendFile(c, f, r))
  {
    var line := c.stringify(r);
    assert Solid(line) && '\n' !in line && c.parse(line) == Some(r);
    var prior := match f case None => "" case Some(t) => t;
    var t := prior + line + "\n";
    assert AppendFile(c, f, r) == Some(t);
    assert t[|t| - 2] == line[|line| - 1];
    if prior == "" || prior == "\n" {
      assert ReadFile(c, f) == [] by {
        assert AllSpace(prior);
        ReadBlank(c, prior);
      }
      AppendToBlank(c, prior, line);
    } else {
      assert ReadFile(c, f) == ParseLines(c, Split(Trim(prior))) by {
        AppendToLines(c, prior, line);
      }
      assert ReadFile(c, Some(t)) == ParseLines(c, Split(Trim(prior)) + [line]) by {
        AppendToLines(c, prior, line);
      }
      ParseLinesAppend(c, Split(Trim(prior)), [line]);
    }
  }

  lemma AppendToBlank(c: Codec, prior: string, line: string)
    requires prior == "" || prior == "\n"
    requires Solid(line) && '\n' !in line
    ensures ReadFile(c, Some(prior + line + "\n")) == ParseLines(c, [line])
  {
    SplitNoNewline(line);
    TrimFramed(prior, line, "\n");
  }

  lemma AppendToLines(c: Codec, prior: string, line: string)
    requires |prior| >= 2 && prior[|prior| - 1] == '\n' && !IsSpace(prior[|prior| - 2])
    requires Solid(line) && '\n' !in line
    ensures Trim(prior) != ""
    ensures Split(Trim(prior + line + "\n")) == Split(Trim(prior)) + [line]
  {
    var x := prior[..|prior| - 1];
    var w, y := SplitLeadingSpace(x);
    assert prior == w + y + "\n";
    TrimFramed(w, y, "\n");
    var z := y + "\n" + line;
    assert Solid(z) by {
      assert z[0] == y[0];
      assert z[|z| - 1] == line[|line| - 1];
    }
    assert prior + line + "\n" == w + z + "\n";
    TrimFramed(w, z, "\n");
    SplitAtNewline(y, line);
    SplitNoNewline(line);
  }

  /** What `updateRecord` leaves behind reads as the merged records; when
      nothing matched the file is untouched and reads as before. */
  lemma UpdateThenRead(c: Codec, f: File, p: Record -> bool, patch: Record)
    requires Lawful(c)
    ensures ReadFile(c, UpdateRecord(c, f, p, patch).file) == MergeInto(ReadFile(c, f), p, patch)
    ensures Tidy(f) ==> Tidy(UpdateRecord(c, f, p, patch).file)
  {
    var rs := ReadFile(c, f);
    if Any(rs, p) {
      WriteThenRead(c, MergeInto(rs, p, patch));
    } else {
      assert MergeInto(rs, p, patch) == rs;
    }
  }

  /** What `deleteRecord` leaves behind reads as the records that do not match. */
  lemma DeleteThenRead(c: Codec, f: File, p: Record -> bool)
    requires Lawful(c)
    ensures ReadFile(c, DeleteRecord(c, f, p).file) == Filter(ReadFile(c, f), Not(p))
    ensures Tidy(f) ==> Tidy(DeleteRecord(c, f, p).file)
  {
    var rs := ReadFile(c, f);
    var kept := Filter(rs, Not(p));
    if |kept| < |rs| {
      WriteThenRead(c, kept);
    } else {
      FilterKeepsAll(rs, Not(p));
    }
  }

}

=== FILE: numbers.dfy ===
/** Numerals: `Number.prototype.toString`, `String.prototype.padStart` and
    `parseFloat`, restricted to integers. */
module Numbers {
  import opened Values
  import opened Text

  predicate IsDigit(c: char) {
    '0' <= c <= '9'
  }

  predicate AllDigits(s: string) {
    forall i :: 0 <= i < |s| ==> IsDigit(s[i])
  }

  function DigitChar(d: nat): (c: char)
    requires d < 10
    ensures IsDigit(c)
  {
    (d + '0' as int) as char
  }

  /** The number a string of decimal digits denotes. */
  function DigitsValue(s: string): nat
    requires AllDigits(s)
  {
    if |s| == 0 then 0
    else DigitsValue(s[..|s| - 1]) * 10 + (s[|s| - 1] as int - '0' as int)
  }

  /** `n.toString()` for a natural number. */
  function DecimalString(n: nat): (s: string)
    ensures |s| >= 1 && AllDigits(s)
  {
    if n < 10 then [DigitChar(n)] else DecimalString(n / 10) + [DigitChar(n % 10)]
  }

  /** The longest prefix of `s` made of digits. */
  function LeadingDigits(s: string): (d: string)
    ensures |d| <= |s| && d == s[..|d|]
    ensures AllDigits(d)
    ensures |d| == |s| || !IsDigit(s[|d|])
  {
    if |s| > 0 && IsDigit(s[0]) then
      var d := LeadingDigits(s[1..]);
      [s[0]] + d
    else ""
  }

  /** `parseFloat` of a string, integer part only: leading white space, an
      optional sign, then digits up to the first non-digit. No digit at all
      gives `NaN`, here `None`. */
  function ParseNumeral(s: string): (r: Option<int>)
    ensures r.None? <==> LeadingDigits(Unsigned(TrimStart(s))) == ""
  {
    var t := TrimStart(s);
    var d := LeadingDigits(Unsigned(t));
    if d == "" then None
    else if |t| > 0 && t[0] == '-' then Some(-(DigitsValue(d) as int))
    else Some(DigitsValue(d))
  }

  function Unsigned(t: string): string {
    if |t| > 0 && (t[0] == '-' || t[0] == '+') then t[1..] else t
  }

  /** `parseFloat(v)` for a JSON scalar or `undefined`: numbers read as
      themselves, strings are parsed, everything else is `NaN` (`None`). */
  function ParseNumber(v: Option<Value>): (r: Option<int>)
    ensures v.Some? && v.value.Num? ==> r == Some(v.value.n)
    ensures v.None? || (v.Some? && (v.value.Null? || v.value.Bool?)) ==> r.None?
  {
    match v
    case Some(Num(n)) => Some(n)
    case Some(Str(s)) => ParseNumeral(s)
    case _ => None
  }

  /** The JSON value `parseFloat` leaves behind once serialised: `NaN` becomes `null`. */
  function NumberOrNull(r: Option<int>): (v: Value)
    ensures ParseNumber(Some(v)) == r
    ensures r.None? ==> v == Null
  {
    match r
    case Some(n) => Num(n)
    case None => Null
  }

  function Repeat(c: char, k: nat): (s: string)
    ensures |s| == k && forall i :: 0 <= i < k ==> s[i] == c
  {
    if k == 0 then "" else [c] + Repeat(c, k - 1)
  }

  /** `s.padStart(width, fill)`: `s` prefixed with `fill` up to `width`
      characters; never shortened. */
  function PadStart(s: string, width: nat, fill: char): (r: string)
    ensures |r| == if |s| >= width then |s| else width
    ensures r[|r| - |s|..] == s
    ensures forall i :: 0 <= i < |r| - |s| ==> r[i] == fill
  {
    if |s| >= width then s else Repeat(fill, width - |s|) + s
  }

  /** Printing a number and reading the digits back gives the number. */
  lemma {:induction false} DecimalValue(n: nat)
    ensures DigitsValue(DecimalString(n)) == n
  {
    var s := DecimalString(n);
    if n >= 10 {
      DecimalValue(n / 10);
      assert s[..|s| - 1] == DecimalString(n / 10);
    }
  }

  function Pow10(k: nat): nat {
    if k == 0 then 1 else 10 * Pow10(k - 1)
  }

  /** A number of at least `10^k` prints with more than `k` digits. */
  lemma {:induction false} DecimalLength(n: nat, k: nat)
    requires n >= Pow10(k)
    ensures |DecimalString(n)| > k
  {
    if k > 0 {
      assert n / 10 >= Pow10(k - 1);
      DecimalLength(n / 10, k - 1);
    }
  }

  /** Leading zeros do not change the value of a numeral. */
  lemma {:induction false} LeadingZerosValue(k: nat, s: string)
    requires AllDigits(s)
    ensures AllDigits(Repeat('0', k) + s)
    ensures DigitsValue(Repeat('0', k) + s) == DigitsValue(s)
  {
    var z := Repeat('0', k) + s;
    if |s| == 0 {
      assert z == Repeat('0', k);
      ZerosValue(k);
    } else {
      assert z[..|z| - 1] == Repeat('0', k) + s[..|s| - 1];
      LeadingZerosValue(k, s[..|s| - 1]);
    }
  }

  lemma {:induction false} ZerosValue(k: nat)
    ensures AllDigits(Repeat('0', k))
    ensures DigitsValue(Repeat('0', k)) == 0
  {
    if k > 0 {
      var z := Repeat('0', k);
      assert z[..k - 1] == Repeat('0', k - 1);
      ZerosValue(k - 1);
    }
  }

  lemma {:induction false} LeadingDigitsOfDigits(s: string)
    requires AllDigits(s)
    ensures LeadingDigits(s) == s
  {
    if |s| > 0 {
      LeadingDigitsOfDigits(s[1..]);
      assert [s[0]] + s[1..] == s;
    }
  }

  lemma DigitIsNotSpace(c: char)
    requires IsDigit(c)
    ensures !IsSpace(c)
  {
  }

  /** A numeral of plain digits parses to its value. */
  lemma ParseDigits(s: string)
    requires |s| >= 1 && AllDigits(s)
    ensures ParseNumeral(s) == Some(DigitsValue(s))
  {
    LeadingDigitsOfDigits(s);
    DigitIsNotSpace(s[0]);
    assert TrimStart(s) == s;
    assert Unsigned(s) == s;
  }

  /** A minus sign before plain digits parses to the negated value. */
  lemma ParseNegatedDigits(s: string)
    requires |s| >= 1 && AllDigits(s)
    ensures ParseNumeral("-" + s) == Some(-(DigitsValue(s) as int))
  {
    var m := "-" + s;
    LeadingDigitsOfDigits(s);
    assert m[0] == '-' && !IsSpace(m[0]);
    assert TrimStart(m) == m;
    assert m[1..] == s;
    assert Unsigned(m) == s;
  }

  /** `parseFloat(String(n)) == n`, and likewise for the negated numeral. */
  lemma {:induction false} ParseDecimal(n: nat)
    ensures ParseNumeral(DecimalString(n)) == Some(n)
    ensures n > 0 ==> ParseNumeral("-" + DecimalString(n)) == Some(-(n as int))
  {
    var s := DecimalString(n);
    DecimalValue(n);
    ParseDigits(s);
    if n > 0 {
      ParseNegatedDigits(s);
    }
  }
}

=== FILE: parent.dfy ===
/** The parent dashboard: the child's profile by parent phone
    (`GET /api/parent/:phone`) and the payment ledger operation
    (`POST /api/payment`). */
module Parent {
  import opened Values
  import opened Seqs
  import opened Numbers
  import opened Store
  import opened Stats
  import opened Profiles
  import FileOps
  import opened Text

  /** `s.parentPhone === phone`. */
  function OfParent(phone: string): Record -> bool {
    FieldIs("parentPhone", Some(Str(phone)))
  }

  /** The profile of the first student in file order whose `parentPhone` is
      `phone`, joined by that student's own `studentId`. */
  function ParentView(db: Db, phone: string): (r: Result<Profile>)
    ensures r.Err? <==> !Any(Read(db, Students), OfParent(phone))
    ensures r.Err? ==> r.error == NotFound
    ensures r.Ok? ==> exists k :: FirstAt(Read(db, Students), OfParent(phone), k)
                                  && r.value == ProfileOf(db, Read(db, Students)[k], Get(Read(db, Students)[k], "studentId"))
    ensures r.Ok? ==> "password" !in r.value.student && Get(r.value.student, "parentPhone") == Some(Str(phone))
    ensures r.Ok? ==> forall p :: p in r.value.payments <==>
                        p in Read(db, Payments) && Get(p, "studentId") == Get(r.value.student, "studentId")
  {
    match Find(Read(db, Students), OfParent(phone))
    case None => Err(NotFound)
    case Some(student) => Ok(ProfileOf(db, student, Get(student, "studentId")))
  }

  // ---------------------------------------------------------------------
  // Payment identifiers

  /** `'P' + (count + 1).toString().padStart(4, '0')`. */
  function PaymentId(count: nat): (id: string)
    ensures |id| == 1 + if |DecimalString(count + 1)| >= 4 then |DecimalString(count + 1)| else 4
    ensures id[0] == 'P'
  {
    "P" + PadStart(DecimalString(count + 1), 4, '0')
  }

  /** The digits after the `P` spell the number of the payment, one past the
      number of payments already recorded. */
  lemma PaymentIdNumber(count: nat)
    ensures AllDigits(PaymentId(count)[1..])
    ensures DigitsValue(PaymentId(count)[1..]) == count + 1
  {
    var d := DecimalString(count + 1);
    var padded := PadStart(d, 4, '0');
    assert PaymentId(count)[1..] == padded;
    DecimalValue(count + 1);
    if |d| < 4 {
      assert padded == Repeat('0', 4 - |d|) + d;
      LeadingZerosValue(4 - |d|, d);
    }
  }

  /** Different payment counts never give the same identifier. */
  lemma PaymentIdInjective(a: nat, b: nat)
    requires PaymentId(a) == PaymentId(b)
    ensures a == b
  {
    PaymentIdNumber(a);
    PaymentIdNumber(b);
  }

  /** The first payment is `P0001` and the seventh `P0007`. */
  lemma PaymentIdExamples()
    ensures PaymentId(0) == "P0001"
    ensures PaymentId(6) == "P0007"
  {
    assert DecimalString(1) == "1";
    assert DecimalString(7) == "7";
  }

  /** From the ten-thousandth payment on the identifier grows past four
      digits rather than being cut: the numbers stay distinct. */
  lemma PaymentIdPastFourDigits(count: nat)
    requires count >= 9999
    ensures |PaymentId(count)| >= 6
  {
    var n := count + 1;
    assert Pow10(4) == 10000;
    DecimalLength(n, 4);
  }

  /** Every payment carries the identifier its position in the ledger gives it. */
  predicate Numbered(payments: seq<Record>) {
    forall i :: 0 <= i < |payments| ==> Get(payments[i], "paymentId") == Some(Str(PaymentId(i)))
  }

  /** In a numbered ledger no two payments share an identifier. */
  lemma NumberedIdsDistinct(payments: seq<Record>, i: int, j: int)
    requires Numbered(payments)
    requires 0 <= i < |payments| && 0 <= j < |payments| && i != j
    ensures Get(payments[i], "paymentId") != Get(payments[j], "paymentId")
  {
    if Get(payments[i], "paymentId") == Get(payments[j], "paymentId") {
      PaymentIdInjective(i, j);
    }
  }

  // ---------------------------------------------------------------------
  // The amount check

  /** The amount check as written: `if (paymentAmount <= 0) reject`. A `NaN`
      amount (`None`) compares false with 0 and so is not rejected. */
  function AmountPassesAsWritten(amount: Option<int>): (ok: bool)
    ensures !ok <==> amount.Some? && amount.value <= 0
    ensures amount.None? ==> ok
  {
    match amount
    case None => true
    case Some(n) => !(n <= 0)
  }

  /** An amount such as `"abc"` is truthy, parses to `NaN`, and passes the
      check as written. */
  lemma NaNAmountPasses()
    ensures Truthy(Some(Str("abc")))
    ensures ParseNumber(Some(Str("abc"))).None?
    ensures AmountPassesAsWritten(ParseNumber(Some(Str("abc"))))
  {
    assert LeadingDigits(Unsigned(TrimStart("abc"))) == "" by {
      assert TrimStart("abc") == "abc";
    }
  }

  /** The check as intended: the amount is a number, and positive. It
      rejects exactly what the written check rejects, plus `NaN`. */
  function ValidAmount(amount: Option<int>): (ok: bool)
    ensures ok <==> AmountPassesAsWritten(amount) && amount.Some?
    ensures ok ==> amount.value > 0
  {
    amount.Some? && amount.value > 0
  }

  // ---------------------------------------------------------------------
  // The payment ledger operation

  /** The reply of an accepted payment; `newBalance` is `null` when the
      amount was `NaN`. */
  datatype Receipt = Receipt(payment: Record, newBalance: Value)

  /** `s.studentId === studentId`. */
  function OfId(body: Record): Record -> bool {
    FieldIs("studentId", Get(body, "studentId"))
  }

  /** The payment record: the parent phone defaults to the student's, the mode
      to `'online'` and the note to `''`; a `NaN` amount is stored as `null`. */
  function NewPayment(body: Record, student: Record, count: nat, amount: Option<int>, today: string): (p: Record)
    requires "studentId" in body
    ensures p.Keys == {"paymentId", "studentId", "amount", "date", "mode", "note"} +
                      (if Truthy(Get(body, "parentPhone")) || "parentPhone" in student then {"parentPhone"} else {})
    ensures Get(p, "paymentId") == Some(Str(PaymentId(count)))
    ensures Get(p, "studentId") == Get(body, "studentId")
    ensures Get(p, "amount") == Some(NumberOrNull(amount)) && Get(p, "date") == Some(Str(today))
    ensures Get(p, "mode") == Some(OrElse(body, "mode", Str("online")))
    ensures Get(p, "note") == Some(OrElse(body, "note", Str("")))
    ensures Truthy(Get(body, "parentPhone")) ==> Get(p, "parentPhone") == Get(body, "parentPhone")
    ensures !Truthy(Get(body, "parentPhone")) ==> Get(p, "parentPhone") == Get(student, "parentPhone")
  {
    var phone := if Truthy(Get(body, "parentPhone")) then Get(body, "parentPhone") else Get(student, "parentPhone");
    var p := map[
      "paymentId" := Str(PaymentId(count)),
      "studentId" := body["studentId"],
      "amount" := NumberOrNull(amount),
      "date" := Str(today),
      "mode" := OrElse(body, "mode", Str("online")),
      "note" := OrElse(body, "note", Str(""))];
    match phone
    case Some(v) => p["parentPhone" := v]
    case None => p
  }

  /** The fee fields after a payment of `amount` by `student`. A `NaN` amount
      makes the new `feePaid` `NaN`, stored as `null`, and the comparison
      with `feeTotal` false, so the status becomes `'pending'`. */
  function FeePatch(student: Record, amount: Option<int>): (patch: Record)
    ensures patch.Keys == {"feePaid", "feeStatus"}
    ensures amount.Some? ==> patch["feePaid"] == Num(AsNumber(Get(student, "feePaid")) + amount.value)
    ensures amount.Some? ==> FeeConsistent(Merge(student, patch))
    ensures amount.None? ==> patch["feePaid"] == Null && patch["feeStatus"] == Str("pending")
  {
    var paid := match amount case Some(n) => Some(AsNumber(Get(student, "feePaid")) + n) case None => None;
    map["feePaid" := NumberOrNull(paid),
        "feeStatus" := Str(if paid.Some? && paid.value >= AsNumber(Get(student, "feeTotal")) then "paid" else "pending")]
  }

  /** The writes of an accepted payment: append the payment record, then
      merge the new fee fields, computed from `student`, into every student
      with the paying `studentId`. */
  function Pay(db: Db, body: Record, student: Record, amount: Option<int>, today: string): (reply: Reply<Receipt>)
    requires "studentId" in body
    ensures reply.result.Ok?
    ensures Read(reply.db, Payments) == Read(db, Payments) + [reply.result.value.payment]
    ensures Get(reply.result.value.payment, "paymentId") == Some(Str(PaymentId(|Read(db, Payments)|)))
    ensures Get(reply.result.value.payment, "studentId") == Get(body, "studentId")
    ensures Get(reply.result.value.payment, "amount") == Some(NumberOrNull(amount))
    ensures Read(reply.db, Students) == FileOps.MergeInto(Read(db, Students), OfId(body), FeePatch(student, amount))
    ensures amount.Some? ==> reply.result.value.newBalance == Num(FeeBalance(student) - amount.value)
    ensures amount.None? ==> reply.result.value.newBalance == Null
    ensures forall c :: c != Students && c != Payments ==> Read(reply.db, c) == Read(db, c)
  {
    var payment := NewPayment(body, student, |Read(db, Payments)|, amount, today);
    var db2 := PayWrites(db, OfId(body), payment, FeePatch(student, amount));
    var balance := match amount case Some(n) => Some(FeeBalance(student) - n) case None => None;
    Reply(Ok(Receipt(payment, NumberOrNull(balance))), db2)
  }

  /** `appendFile('payments.txt', payment)` followed by `updateRecord` of
      the students matching `p` with `patch`. */
  function PayWrites(db: Db, p: Record -> bool, payment: Record, patch: Record): (db': Db)
    ensures Read(db', Payments) == Read(db, Payments) + [payment]
    ensures Read(db', Students) == FileOps.MergeInto(Read(db, Students), p, patch)
    ensures forall c :: c != Students && c != Payments ==> Read(db', c) == Read(db, c)
  {
    var db1 := Append(db, Payments, payment);
    assert Read(db1, Students) == Read(db, Students);
    Update(db1, Students, p, patch).1
  }

  /** `POST /api/payment` as written. Rejections come before any write, in
      the order missing fields, amount not above 0, unknown student; an
      accepted payment is paid against the first student with the given
      `studentId`. A truthy amount that parses to `NaN` is accepted. */
  function MakePayment(db: Db, body: Record, today: string): (reply: Reply<Receipt>)
    ensures !Truthy(Get(body, "studentId")) || !Truthy(Get(body, "amount")) ==>
              reply == Reply(Err(MissingFields), db)
    ensures Truthy(Get(body, "studentId")) && Truthy(Get(body, "amount")) &&
            !AmountPassesAsWritten(ParseNumber(Get(body, "amount"))) ==>
              reply == Reply(Err(InvalidAmount), db)
    ensures Truthy(Get(body, "studentId")) && Truthy(Get(body, "amount")) &&
            AmountPassesAsWritten(ParseNumber(Get(body, "amount"))) && !Any(Read(db, Students), OfId(body)) ==>
              reply == Reply(Err(NotFound), db)
    ensures reply.result.Err? ==> reply.db == db
    ensures reply.result.Ok? <==>
              Truthy(Get(body, "studentId")) && Truthy(Get(body, "amount")) &&
              AmountPassesAsWritten(ParseNumber(Get(body, "amount"))) && Any(Read(db, Students), OfId(body))
    ensures reply.result.Ok? ==> "studentId" in body
    ensures reply.result.Ok? ==>
              (exists k :: FirstAt(Read(db, Students), OfId(body), k) &&
                 reply == Pay(db, body, Read(db, Students)[k], ParseNumber(Get(body, "amount")), today))
  {
    if !Truthy(Get(body, "studentId")) || !Truthy(Get(body, "amount")) then Reply(Err(MissingFields), db)
    else
      var amount := ParseNumber(Get(body, "amount"));
      if !AmountPassesAsWritten(amount) then Reply(Err(InvalidAmount), db)
      else match Find(Read(db, Students), OfId(body))
        case None => Reply(Err(NotFound), db)
        case Some(student) => Pay(db, body, student, amount, today)
  }

  /** `POST /api/payment` with the amount check as intended: an amount that
      is not a positive number is refused before any write, so every
      recorded payment has a positive numeric amount. */
  function MakePaymentIntended(db: Db, body: Record, today: string): (reply: Reply<Receipt>)
    ensures !Truthy(Get(body, "studentId")) || !Truthy(Get(body, "amount")) ==>
              reply == Reply(Err(MissingFields), db)
    ensures Truthy(Get(body, "studentId")) && Truthy(Get(body, "amount")) && !ValidAmount(ParseNumber(Get(body, "amount"))) ==>
              reply == Reply(Err(InvalidAmount), db)
    ensures Truthy(Get(body, "studentId")) && ValidAmount(ParseNumber(Get(body, "amount"))) && !Any(Read(db, Students), OfId(body)) ==>
              reply == Reply(Err(NotFound), db)
    ensures reply.result.Err? ==> reply.db == db
    ensures reply.result.Ok? <==>
              Truthy(Get(body, "studentId")) && ValidAmount(ParseNumber(Get(body, "amount"))) && Any(Read(db, Students), OfId(body))
    ensures reply.result.Ok? ==> "studentId" in body && ValidAmount(ParseNumber(Get(body, "amount")))
    ensures reply.result.Ok? ==>
              exists n :: n > 0 && Get(reply.result.value.payment, "amount") == Some(Num(n))
    ensures reply.result.Ok? ==>
              (exists k :: FirstAt(Read(db, Students), OfId(body), k) &&
                 reply == Pay(db, body, Read(db, Students)[k], ParseNumber(Get(body, "amount")), today))
  {
    if !Truthy(Get(body, "studentId")) || !Truthy(Get(body, "amount")) then Reply(Err(MissingFields), db)
    else
      var amount := ParseNumber(Get(body, "amount"));
      if !ValidAmount(amount) then Reply(Err(InvalidAmount), db)
      else match Find(Read(db, Students), OfId(body))
        case None => Reply(Err(NotFound), db)
        case Some(student) => Pay(db, body, student, amount, today)
  }

  /** The two routes answer alike whenever the amount parses to a number,
      and differ exactly on a present, truthy amount that parses to `NaN`. */
  lemma IntendedDiffersOnlyOnNaN(db: Db, body: Record, today: string)
    ensures ParseNumber(Get(body, "amount")).Some? ==> MakePayment(db, body, today) == MakePaymentIntended(db, body, today)
    ensures MakePayment(db, body, today) != MakePaymentIntended(db, body, today) <==>
              Truthy(Get(body, "studentId")) && Truthy(Get(body, "amount")) && ParseNumber(Get(body, "amount")).None?
  {
    var amount := ParseNumber(Get(body, "amount"));
    if Truthy(Get(body, "studentId")) && Truthy(Get(body, "amount")) && amount.None? {
      assert MakePaymentIntended(db, body, today).result == Err(InvalidAmount);
      assert MakePayment(db, body, today).result != Err(InvalidAmount);
    }
  }

  /** As written, a truthy studentId of a known student with an amount that
      parses to `NaN` is accepted: a payment with a `null` amount is
      appended, every student with that id gets `feePaid` `null` and
      `feeStatus` `'pending'`, and the reply's `newBalance` is `null`. */
  lemma NaNPaymentRecorded(db: Db, body: Record, today: string)
    requires Truthy(Get(body, "studentId")) && Truthy(Get(body, "amount")) && ParseNumber(Get(body, "amount")).None?
    requires Any(Read(db, Students), OfId(body))
    ensures MakePayment(db, body, today).result.Ok?
    ensures MakePayment(db, body, today).result.value.newBalance == Null
    ensures Get(MakePayment(db, body, today).result.value.payment, "amount") == Some(Null)
    ensures Read(MakePayment(db, body, today).db, Payments) ==
              Read(db, Payments) + [MakePayment(db, body, today).result.value.payment]
    ensures forall i :: 0 <= i < |Read(db, Students)| && OfId(body)(Read(db, Students)[i]) ==>
              Get(Read(MakePayment(db, body, today).db, Students)[i], "feePaid") == Some(Null) &&
              Get(Read(MakePayment(db, body, today).db, Students)[i], "feeStatus") == Some(Str("pending"))
  {
    var reply := MakePayment(db, body, today);
    var students := Read(db, Students);
    var k :| FirstAt(students, OfId(body), k) && reply == Pay(db, body, students[k], None, today);
    NaNPay(db, body, students[k], today);
  }

  /** A payment without a numeric amount, once the route has accepted it:
      the amount, the paying students' `feePaid` and the balance are all
      `null`, and the status is `'pending'`. */
  lemma NaNPay(db: Db, body: Record, student: Record, today: string)
    requires "studentId" in body
    ensures var reply := Pay(db, body, student, None, today);
      && reply.result.Ok?
      && reply.result.value.newBalance == Null
      && Get(reply.result.value.payment, "amount") == Some(Null)
      && Read(reply.db, Payments) == Read(db, Payments) + [reply.result.value.payment]
      && (forall i :: 0 <= i < |Read(db, Students)| && OfId(body)(Read(db, Students)[i]) ==>
            Get(Read(reply.db, Students)[i], "feePaid") == Some(Null) &&
            Get(Read(reply.db, Students)[i], "feeStatus") == Some(Str("pending")))
  {
    var reply := Pay(db, body, student, None, today);
    var patch := FeePatch(student, None);
    assert Read(reply.db, Students) == FileOps.MergeInto(Read(db, Students), OfId(body), patch);
  }

  /** What an accepted payment does to the students: the paying student's
      `feePaid` grows by a numeric amount and `feeStatus` agrees with it
      afterwards, a `NaN` amount leaves `feePaid` `null` and the status
      `'pending'`; students with another id are untouched; no field other
      than the two fee fields changes on anyone. */
  lemma PaymentUpdatesFees(db: Db, body: Record, student: Record, amount: Option<int>, today: string, k: int)
    requires "studentId" in body
    requires FirstAt(Read(db, Students), OfId(body), k) && student == Read(db, Students)[k]
    ensures var s' := Read(Pay(db, body, student, amount, today).db, Students);
      && |s'| == |Read(db, Students)|
      && (amount.Some? ==> FeeConsistent(s'[k]))
      && (amount.Some? ==> Get(s'[k], "feePaid") == Some(Num(AsNumber(Get(student, "feePaid")) + amount.value)))
      && (amount.None? ==> Get(s'[k], "feePaid") == Some(Null) && Get(s'[k], "feeStatus") == Some(Str("pending")))
      && (forall i :: 0 <= i < |s'| && !OfId(body)(Read(db, Students)[i]) ==> s'[i] == Read(db, Students)[i])
      && (forall i, f :: 0 <= i < |s'| && f != "feePaid" && f != "feeStatus" ==>
            Get(s'[i], f) == Get(Read(db, Students)[i], f))
  {
    var students := Read(db, Students);
    var patch := FeePatch(student, amount);
    var reply := Pay(db, body, student, amount, today);
    var s' := Read(reply.db, Students);
    assert s' == FileOps.MergeInto(students, OfId(body), patch);
    assert s'[k] == Merge(student, patch);
    if amount.None? {
      assert patch["feePaid"] == Null && patch["feeStatus"] == Str("pending");
    }
    FeeFieldsOnly(students, OfId(body), patch);
  }

  /** Merging a patch of the two fee fields changes no other field. */
  lemma FeeFieldsOnly(rs: seq<Record>, p: Record -> bool, patch: Record)
    requires patch.Keys == {"feePaid", "feeStatus"}
    ensures forall i, f :: 0 <= i < |rs| && f != "feePaid" && f != "feeStatus" ==>
              Get(FileOps.MergeInto(rs, p, patch)[i], f) == Get(rs[i], f)
  {
    MergeIntoFields(rs, p, patch);
  }

  /** Appending the payment numbered after the last keeps a ledger numbered. */
  lemma NumberedAppend(ps: seq<Record>, p: Record)
    requires Numbered(ps)
    requires Get(p, "paymentId") == Some(Str(PaymentId(|ps|)))
    ensures Numbered(ps + [p])
  {
    var ps' := ps + [p];
    forall i | 0 <= i < |ps'|
      ensures Get(ps'[i], "paymentId") == Some(Str(PaymentId(i)))
    {
      if i < |ps| {
        assert ps'[i] == ps[i];
      }
    }
  }

  /** A payment keeps a numbered ledger numbered, so identifiers stay unique. */
  lemma PaymentKeepsLedgerNumbered(db: Db, body: Record, today: string)
    requires Numbered(Read(db, Payments))
    ensures Numbered(Read(MakePayment(db, body, today).db, Payments))
  {
    var reply := MakePayment(db, body, today);
    if reply.result.Ok? {
      var k :| FirstAt(Read(db, Students), OfId(body), k) &&
               reply == Pay(db, body, Read(db, Students)[k], ParseNumber(Get(body, "amount")), today);
      NumberedAppend(Read(db, Payments), reply.result.value.payment);
    }
  }

  /** Fees of 50000 with 20000 paid: a payment of 30000 settles them, marks
      the student paid and leaves a balance of 0. */
  lemma SettlingPayment(db: Db, body: Record, today: string)
    requires Read(db, Students) == [map["studentId" := Str("S1001"), "feeTotal" := Num(50000), "feePaid" := Num(20000),
                                         "feeStatus" := Str("pending")]]
    requires body == map["studentId" := Str("S1001"), "amount" := Num(30000)]
    ensures MakePayment(db, body, today).result.Ok?
    ensures MakePayment(db, body, today).result.value.newBalance == Num(0)
    ensures Read(MakePayment(db, body, today).db, Students)[0]["feePaid"] == Num(50000)
    ensures Read(MakePayment(db, body, today).db, Students)[0]["feeStatus"] == Str("paid")
  {
    assert OfId(body)(Read(db, Students)[0]);
  }
}

=== FILE: profiles.dfy ===
/** The joined profile read shared by the student dashboard
    (`GET /api/student/:id`) and the parent dashboard (`GET /api/parent/:phone`). */
module Profiles {
  import opened Values
  import opened Seqs
  import opened Store
  import opened Stats

  datatype Profile = Profile(
    student: Record,
    attendance: seq<Record>,
    stats: AttendanceStats,
    marks: seq<Record>,
    payments: seq<Record>,
    feeBalance: int)

  /** `r.studentId === key`, where `key` may be undefined. */
  function OfStudent(key: Option<Value>): Record -> bool {
    FieldIs("studentId", key)
  }

  /** The profile of one student record: the records of the three other
      collections whose `studentId` is `key`, each in file order, the
      attendance statistics over them, the fee balance, and the student
      without its password. */
  function ProfileOf(db: Db, student: Record, key: Option<Value>): (v: Profile)
    ensures v.student == Without(student, "password")
    ensures v.attendance == Filter(Read(db, Attendance), OfStudent(key))
    ensures v.marks == Filter(Read(db, Marks), OfStudent(key))
    ensures v.payments == Filter(Read(db, Payments), OfStudent(key))
    ensures forall r :: r in v.attendance <==> r in Read(db, Attendance) && Get(r, "studentId") == key
    ensures forall r :: r in v.payments <==> r in Read(db, Payments) && Get(r, "studentId") == key
    ensures forall r :: r in v.marks <==> r in Read(db, Marks) && Get(r, "studentId") == key
    ensures v.stats == StatsOf(v.attendance)
    ensures v.stats.total == |v.attendance| && v.stats.present <= v.stats.total
    ensures v.stats.absent == v.stats.total - v.stats.present && 0 <= v.stats.percentage <= 100
    ensures v.feeBalance == AsNumber(Get(student, "feeTotal")) - AsNumber(Get(student, "feePaid"))
  {
    var attendance := Filter(Read(db, Attendance), OfStudent(key));
    Profile(
      Without(student, "password"),
      attendance,
      StatsOf(attendance),
      Filter(Read(db, Marks), OfStudent(key)),
      Filter(Read(db, Payments), OfStudent(key)),
      FeeBalance(student))
  }

  /** A student with fees of 50000, 20000 paid and no attendance yet: every
      count is 0 and the balance is 30000. */
  lemma FreshStudentProfile(db: Db, s: Record)
    requires Read(db, Attendance) == []
    requires Get(s, "feeTotal") == Some(Num(50000)) && Get(s, "feePaid") == Some(Num(20000))
    ensures ProfileOf(db, s, Get(s, "studentId")).stats == AttendanceStats(0, 0, 0, 0)
    ensures ProfileOf(db, s, Get(s, "studentId")).feeBalance == 30000
  {
  }

  /** `rs.map(r => ({ ...r, password: undefined }))` as serialised: every
      record kept, in order, with only its password gone. */
  function StripPasswords(rs: seq<Record>): (out: seq<Record>)
    ensures |out| == |rs|
    ensures forall i :: 0 <= i < |rs| ==> "password" !in out[i]
    ensures forall i, f :: 0 <= i < |rs| && f != "password" ==> Get(out[i], f) == Get(rs[i], f)
  {
    if |rs| == 0 then [] else [Without(rs[0], "password")] + StripPasswords(rs[1..])
  }
}

=== FILE: seqs.dfy ===
/** The array operations the record store is built from: `Array.prototype.find`,
    `filter` and a `map` that rewrites only the matching elements. */
module Seqs {
  import opened Values

  predicate Any<T>(xs: seq<T>, p: T -> bool) {
    exists i :: 0 <= i < |xs| && p(xs[i])
  }

  /** `xs[k]` is the first element satisfying `p`. */
  predicate FirstAt<T>(xs: seq<T>, p: T -> bool, k: int) {
    0 <= k < |xs| && p(xs[k]) && forall j :: 0 <= j < k ==> !p(xs[j])
  }

  /** `xs.find(p)`: the first element in order satisfying `p`, or `None`. */
  function Find<T>(xs: seq<T>, p: T -> bool): (r: Option<T>)
    ensures r.None? <==> !Any(xs, p)
    ensures r.Some? ==> exists k :: FirstAt(xs, p, k) && xs[k] == r.value
  {
    if |xs| == 0 then None
    else if p(xs[0]) then Some(xs[0])
    else
      var r := Find(xs[1..], p);
      assert forall i :: 0 < i < |xs| ==> xs[i] == xs[1..][i - 1];
      assert r.Some? ==> exists k :: FirstAt(xs, p, k) && xs[k] == r.value by {
        if r.Some? {
          var k :| FirstAt(xs[1..], p, k) && xs[1..][k] == r.value;
          assert FirstAt(xs, p, k + 1);
        }
      }
      r
  }

  /** `xs.filter(p)`: the elements satisfying `p`, in their original order. */
  function Filter<T>(xs: seq<T>, p: T -> bool): (r: seq<T>)
    ensures |r| <= |xs|
    ensures forall x :: x in r ==> x in xs && p(x)
    ensures forall i :: 0 <= i < |xs| && p(xs[i]) ==> xs[i] in r
    ensures |r| == |xs| <==> forall i :: 0 <= i < |xs| ==> p(xs[i])
  {
    if |xs| == 0 then []
    else
      var rest := Filter(xs[1..], p);
      assert forall i :: 0 < i < |xs| ==> xs[i] == xs[1..][i - 1];
      if p(xs[0]) then [xs[0]] + rest else rest
  }

  /** `xs.map(x => p(x) ? f(x) : x)`: every matching element rewritten, the
      rest untouched, positions kept. */
  function MapWhere<T>(xs: seq<T>, p: T -> bool, f: T -> T): (r: seq<T>)
    ensures |r| == |xs|
    ensures forall i :: 0 <= i < |xs| && p(xs[i]) ==> r[i] == f(xs[i])
    ensures forall i :: 0 <= i < |xs| && !p(xs[i]) ==> r[i] == xs[i]
  {
    if |xs| == 0 then []
    else [if p(xs[0]) then f(xs[0]) else xs[0]] + MapWhere(xs[1..], p, f)
  }

  /** `xs.map(f)`, computed element by element. */
  method MapAll<T, U>(xs: seq<T>, f: T -> U) returns (ys: seq<U>)
    ensures |ys| == |xs|
    ensures forall i :: 0 <= i < |xs| ==> ys[i] == f(xs[i])
  {
    ys := [];
    var i := 0;
    while i < |xs|
      invariant 0 <= i <= |xs|
      invariant |ys| == i
      invariant forall j :: 0 <= j < i ==> ys[j] == f(xs[j])
    {
      ys := ys + [f(xs[i])];
      i := i + 1;
    }
  }

  function Not<T>(p: T -> bool): T -> bool {
    x => !p(x)
  }

  function And<T>(p: T -> bool, q: T -> bool): T -> bool {
    x => p(x) && q(x)
  }

  /** Filtering distributes over concatenation: together with the one-element
      case this pins `Filter` down to "the matches, in order". */
  lemma {:induction false} FilterAppend<T>(xs: seq<T>, ys: seq<T>, p: T -> bool)
    ensures Filter(xs + ys, p) == Filter(xs, p) + Filter(ys, p)
  {
    if |xs| == 0 {
      assert xs + ys == ys;
    } else {
      var zs := xs + ys;
      assert zs[0] == xs[0] && zs[1..] == xs[1..] + ys;
      FilterAppend(xs[1..], ys, p);
      if p(xs[0]) {
        calc {
          Filter(zs, p);
          [xs[0]] + Filter(xs[1..] + ys, p);
          [xs[0]] + (Filter(xs[1..], p) + Filter(ys, p));
          ([xs[0]] + Filter(xs[1..], p)) + Filter(ys, p);
        }
      }
    }
  }

  /** A filter that drops nothing returns its input. */
  lemma {:induction false} FilterKeepsAll<T>(xs: seq<T>, p: T -> bool)
    requires |Filter(xs, p)| == |xs|
    ensures Filter(xs, p) == xs
  {
    if |xs| > 0 {
      FilterKeepsAll(xs[1..], p);
    }
  }

  /** Filtering by two predicates that agree on every element gives the same result. */
  lemma {:induction false} FilterSame<T>(xs: seq<T>, p: T -> bool, q: T -> bool)
    requires forall i :: 0 <= i < |xs| ==> p(xs[i]) == q(xs[i])
    ensures Filter(xs, p) == Filter(xs, q)
  {
    if |xs| > 0 {
      assert forall i :: 0 < i < |xs| ==> xs[i] == xs[1..][i - 1];
      FilterSame(xs[1..], p, q);
    }
  }

  /** Two filters in a row keep exactly what one filter by the conjunction keeps. */
  lemma {:induction false} FilterFilter<T>(xs: seq<T>, p: T -> bool, q: T -> bool)
    ensures Filter(Filter(xs, p), q) == Filter(xs, And(p, q))
  {
    if |xs| > 0 {
      FilterFilter(xs[1..], p, q);
      var rest := Filter(xs[1..], p);
      if p(xs[0]) {
        assert Filter(xs, p) == [xs[0]] + rest;
        assert ([xs[0]] + rest)[1..] == rest;
      }
    }
  }

  /** The first match of a concatenation is the first match of the front part
      when it has one, otherwise the first match of the back part. */
  lemma {:induction false} FindAppend<T>(xs: seq<T>, ys: seq<T>, p: T -> bool)
    ensures Find(xs + ys, p) == if Any(xs, p) then Find(xs, p) else Find(ys, p)
  {
    if |xs| == 0 {
      assert xs + ys == ys;
    } else {
      assert (xs + ys)[1..] == xs[1..] + ys;
      assert (xs + ys)[0] == xs[0];
      FindAppend(xs[1..], ys, p);
      if !p(xs[0]) {
        assert Any(xs, p) <==> Any(xs[1..], p) by {
          if Any(xs, p) {
            var i :| 0 <= i < |xs| && p(xs[i]);
            assert xs[1..][i - 1] == xs[i];
          }
          if Any(xs[1..], p) {
            var i :| 0 <= i < |xs[1..]| && p(xs[1..][i]);
            assert xs[i + 1] == xs[1..][i];
          }
        }
      }
    }
  }
}

=== FILE: stats.dfy ===
/** The aggregates the dashboards show: attendance statistics, average marks
    and the fee balance. `Math.round` of a quotient is modelled exactly on
    integers (halves round up). */
module Stats {
  import opened Values
  import opened Seqs

  /** `Math.round(a / n)`: the integer nearest to `a / n`, a half rounding up. */
  function RoundDiv(a: int, n: int): (q: int)
    requires n > 0
    ensures 2 * n * q - n <= 2 * a < 2 * n * q + n
  {
    (2 * a + n) / (2 * n)
  }

  /** Only one integer lies within half a step of `a / n` (half-open), so
      `RoundDiv` is exactly round-half-up. */
  lemma RoundDivUnique(a: int, n: int, q: int)
    requires n > 0
    requires 2 * n * q - n <= 2 * a < 2 * n * q + n
    ensures q == RoundDiv(a, n)
  {
    var r := RoundDiv(a, n);
    if q < r {
      MulMonotone(n, q + 1, r);
    } else if q > r {
      MulMonotone(n, r + 1, q);
    }
  }

  lemma MulMonotone(n: int, x: int, y: int)
    requires n > 0 && x <= y
    ensures n * x <= n * y
  {
  }

  /** A quotient of a total lying between `n * lo` and `n * hi` rounds to a
      value between `lo` and `hi`. */
  lemma RoundDivWithin(a: int, n: int, lo: int, hi: int)
    requires n > 0
    requires n * lo <= a <= n * hi
    ensures lo <= RoundDiv(a, n) <= hi
  {
    var q := RoundDiv(a, n);
    if q > hi {
      MulMonotone(n, hi + 1, q);
    }
    if q < lo {
      MulMonotone(n, q + 1, lo);
    }
  }

  datatype AttendanceStats = AttendanceStats(total: nat, present: nat, absent: int, percentage: int)

  /** `a.status === 'present'`. */
  function Present(): Record -> bool {
    FieldIs("status", Some(Str("present")))
  }

  /** The attendance statistics of a student's records: any status other
      than `'present'` counts as absent. */
  function StatsOf(records: seq<Record>): (s: AttendanceStats)
    ensures s.total == |records|
    ensures s.present == |Filter(records, Present())|
    ensures s.present <= s.total && s.absent == s.total - s.present
    ensures 0 <= s.percentage <= 100
    ensures s.total == 0 ==> s.percentage == 0
    ensures s.total > 0 ==> 2 * s.total * s.percentage - s.total <= 200 * s.present < 2 * s.total * s.percentage + s.total
  {
    var total := |records|;
    var present := |Filter(records, Present())|;
    var percentage := if total > 0 then RoundDiv(100 * present, total) else 0;
    if total > 0 then
      RoundDivWithin(100 * present, total, 0, 100);
      AttendanceStats(total, present, total - present, percentage)
    else AttendanceStats(total, present, total - present, percentage)
  }

  /** Seven present out of ten records is 70 percent; no records is 0 percent. */
  lemma StatsExamples()
    ensures StatsOf([]) == AttendanceStats(0, 0, 0, 0)
    ensures RoundDiv(100 * 7, 10) == 70
    ensures RoundDiv(100 * 2, 3) == 67 && RoundDiv(100 * 1, 8) == 13
  {
  }

  /** The `marks` field of each record as a number. */
  function MarkValues(records: seq<Record>): (ms: seq<int>)
    ensures |ms| == |records|
    ensures forall i :: 0 <= i < |records| ==> ms[i] == AsNumber(Get(records[i], "marks"))
  {
    if |records| == 0 then [] else [AsNumber(Get(records[0], "marks"))] + MarkValues(records[1..])
  }

  /** One more record adds its mark at the end. */
  lemma MarkValuesSnoc(records: seq<Record>, r: Record)
    ensures MarkValues(records + [r]) == MarkValues(records) + [AsNumber(Get(r, "marks"))]
  {
    var xs := records + [r];
    assert forall i :: 0 <= i < |records| ==> xs[i] == records[i];
    assert xs[|records|] == r;
  }

  function Sum(xs: seq<int>): int {
    if |xs| == 0 then 0 else xs[0] + Sum(xs[1..])
  }

  /** The rounded mean of the marks, 0 when there are none. */
  function AverageMarks(records: seq<Record>): (avg: int)
    ensures |records| == 0 ==> avg == 0
    ensures |records| > 0 ==>
              2 * |records| * avg - |records| <= 2 * Sum(MarkValues(records)) < 2 * |records| * avg + |records|
  {
    var ms := MarkValues(records);
    if |ms| > 0 then RoundDiv(Sum(ms), |ms|) else 0
  }

  lemma {:induction false} SumWithin(xs: seq<int>, lo: int, hi: int)
    requires forall i :: 0 <= i < |xs| ==> lo <= xs[i] <= hi
    ensures |xs| * lo <= Sum(xs) <= |xs| * hi
  {
    if |xs| > 0 {
      SumWithin(xs[1..], lo, hi);
    }
  }

  /** The average lies between the lowest and the highest mark. */
  lemma AverageWithin(records: seq<Record>, lo: int, hi: int)
    requires |records| > 0
    requires forall i :: 0 <= i < |records| ==> lo <= AsNumber(Get(records[i], "marks")) <= hi
    ensures lo <= AverageMarks(records) <= hi
  {
    var ms := MarkValues(records);
    SumWithin(ms, lo, hi);
    RoundDivWithin(Sum(ms), |ms|, lo, hi);
  }

  /** `feeTotal - feePaid`; negative after an overpayment, never clamped. */
  function FeeBalance(student: Record): (b: int)
    ensures b + AsNumber(Get(student, "feePaid")) == AsNumber(Get(student, "feeTotal"))
    ensures FeeConsistent(student) ==> (b <= 0 <==> Get(student, "feeStatus") == Some(Str("paid")))
  {
    AsNumber(Get(student, "feeTotal")) - AsNumber(Get(student, "feePaid"))
  }

  /** `feeStatus` agrees with the amounts: `'paid'` exactly when fully paid. */
  predicate FeeConsistent(s: Record) {
    Get(s, "feeStatus") == Some(Str("paid")) <==> AsNumber(Get(s, "feePaid")) >= AsNumber(Get(s, "feeTotal"))
  }

  /** An overpayment of 5000 against a zero balance reads as -5000, not 0. */
  lemma FeeBalanceUnclamped()
    ensures FeeBalance(map["feeTotal" := Num(50000), "feePaid" := Num(55000)]) == -5000
  {
  }
}

=== FILE: store.dfy ===
/** The five collections as the request handlers see them: each collection is
    the sequence of records its file reads as (see FileOps for why reading
    after a write or an append gives exactly these sequences). */
module Store {
  import opened Values
  import opened Seqs
  import FileOps

  datatype Collection = Students | Teachers | Attendance | Marks | Payments

  /** A missing collection is a file that does not exist yet. */
  type Db = map<Collection, seq<Record>>

  /** The ways a request fails. */
  datatype Error =
    | MissingFields        // a required field is absent or falsy
    | Duplicate            // the primary key is already taken
    | NotFound             // no record has the key asked for
    | InvalidRequest       // a bulk request without a date or an attendance array
    | InvalidAmount        // a payment amount that is not a positive number
    | InvalidRole          // a role the operation does not serve
    | InvalidCredentials   // admin login with the wrong id or password
    | InvalidPassword      // the password does not match the stored hash
    | UpdateFailed         // the record vanished between lookup and update

  datatype Result<+T> = Ok(value: T) | Err(error: Error)

  /** What a request answers, and the collections after it. */
  datatype Reply<+T> = Reply(result: Result<T>, db: Db)

  function Read(db: Db, c: Collection): seq<Record> {
    if c in db then db[c] else []
  }

  /** Only collection `c` differs between the two stores. */
  predicate OnlyChanged(db: Db, db': Db, c: Collection) {
    forall d :: d != c ==> Read(db', d) == Read(db, d)
  }

  /** `appendFile`. */
  function Append(db: Db, c: Collection, r: Record): (db': Db)
    ensures Read(db', c) == Read(db, c) + [r]
    ensures OnlyChanged(db, db', c)
  {
    db[c := Read(db, c) + [r]]
  }

  /** `updateRecord`: merge `patch` into every record matching `p`. */
  function Update(db: Db, c: Collection, p: Record -> bool, patch: Record): (out: (bool, Db))
    ensures out.0 <==> Any(Read(db, c), p)
    ensures !out.0 ==> out.1 == db
    ensures Read(out.1, c) == FileOps.MergeInto(Read(db, c), p, patch)
    ensures OnlyChanged(db, out.1, c)
  {
    var rs := Read(db, c);
    if Any(rs, p) then (true, db[c := FileOps.MergeInto(rs, p, patch)])
    else
      assert FileOps.MergeInto(rs, p, patch) == rs;
      (false, db)
  }

  /** `deleteRecord`: drop every record matching `p`. */
  function Delete(db: Db, c: Collection, p: Record -> bool): (out: (bool, Db))
    ensures out.0 <==> Any(Read(db, c), p)
    ensures !out.0 ==> out.1 == db
    ensures Read(out.1, c) == Filter(Read(db, c), Not(p))
    ensures OnlyChanged(db, out.1, c)
  {
    var rs := Read(db, c);
    var kept := Filter(rs, Not(p));
    if |kept| < |rs| then (true, db[c := kept])
    else
      FilterKeepsAll(rs, Not(p));
      (false, db)
  }

  /** `r[key] === id` for a route parameter `id`. */
  function ById(key: string, id: string): Record -> bool {
    FieldIs(key, Some(Str(id)))
  }

  /** Field by field, merging `patch` into the matches of `p` sets the
      patched fields on the matches and leaves every other field alone. */
  lemma MergeIntoFields(rs: seq<Record>, p: Record -> bool, patch: Record)
    ensures forall i, f :: 0 <= i < |rs| && f !in patch ==>
              Get(FileOps.MergeInto(rs, p, patch)[i], f) == Get(rs[i], f)
    ensures forall i, f :: 0 <= i < |rs| && p(rs[i]) && f in patch ==>
              Get(FileOps.MergeInto(rs, p, patch)[i], f) == Some(patch[f])
  {
    var out := FileOps.MergeInto(rs, p, patch);
    forall i, f | 0 <= i < |rs| && f !in patch
      ensures Get(out[i], f) == Get(rs[i], f)
    {
      if p(rs[i]) {
        assert out[i] == Merge(rs[i], patch);
      }
    }
  }

  /** No two records share a value of `key`: the primary-key discipline the
      add routes keep by refusing duplicates. */
  predicate Keyed(rs: seq<Record>, key: string) {
    forall i, j :: 0 <= i < |rs| && 0 <= j < |rs| && i != j ==> Get(rs[i], key) != Get(rs[j], key)
  }

  /** Dropping records keeps the keys distinct. */
  lemma {:induction false} FilterKeyed(rs: seq<Record>, key: string, p: Record -> bool)
    requires Keyed(rs, key)
    ensures Keyed(Filter(rs, p), key)
  {
    if |rs| > 0 {
      var tail := rs[1..];
      assert Keyed(tail, key) by {
        forall i, j | 0 <= i < |tail| && 0 <= j < |tail| && i != j
          ensures Get(tail[i], key) != Get(tail[j], key)
        {
          assert tail[i] == rs[i + 1] && tail[j] == rs[j + 1];
        }
      }
      FilterKeyed(tail, key, p);
      if p(rs[0]) {
        var rest := Filter(tail, p);
        var out := [rs[0]] + rest;
        forall i, j | 0 <= i < |out| && 0 <= j < |out| && i != j
          ensures Get(out[i], key) != Get(out[j], key)
        {
          if i > 0 && j > 0 {
            assert out[i] == rest[i - 1] && out[j] == rest[j - 1];
          } else {
            var m := if i == 0 then j else i;
            assert out[m] == rest[m - 1] && rest[m - 1] in tail;
            var t :| 0 <= t < |tail| && tail[t] == rest[m - 1];
            assert tail[t] == rs[t + 1];
          }
        }
      }
    }
  }

  /** A record whose key nobody holds yet can be appended without breaking
      the discipline. */
  lemma AppendKeyed(rs: seq<Record>, key: string, r: Record)
    requires Keyed(rs, key)
    requires !Any(rs, FieldIs(key, Get(r, key)))
    ensures Keyed(rs + [r], key)
  {
    var out := rs + [r];
    forall i, j | 0 <= i < |out| && 0 <= j < |out| && i != j
      ensures Get(out[i], key) != Get(out[j], key)
    {
      if i < |rs| && j < |rs| {
        assert out[i] == rs[i] && out[j] == rs[j];
      } else {
        var m := if i < |rs| then i else j;
        assert out[m] == rs[m];
        assert !FieldIs(key, Get(r, key))(rs[m]);
      }
    }
  }
}

=== FILE: student.dfy ===
/** `GET /api/student/:id`: the student dashboard's profile read. */
module Student {
  import opened Values
  import opened Seqs
  import opened Store
  import opened Profiles

  /** The profile of the first student whose `studentId` is `id`, joined
      with that id's attendance, marks and payments. */
  function StudentView(db: Db, id: string): (r: Result<Profile>)
    ensures r.Err? <==> !Any(Read(db, Students), OfStudent(Some(Str(id))))
    ensures r.Err? ==> r.error == NotFound
    ensures r.Ok? ==> exists k :: FirstAt(Read(db, Students), OfStudent(Some(Str(id))), k)
                                  && r.value == ProfileOf(db, Read(db, Students)[k], Some(Str(id)))
    ensures r.Ok? ==> "password" !in r.value.student && Get(r.value.student, "studentId") == Some(Str(id))
    ensures r.Ok? ==> forall a :: a in r.value.attendance <==> a in Read(db, Attendance) && Get(a, "studentId") == Some(Str(id))
  {
    match Find(Read(db, Students), OfStudent(Some(Str(id))))
    case None => Err(NotFound)
    case Some(student) => Ok(ProfileOf(db, student, Some(Str(id))))
  }
}

=== FILE: teacher.dfy ===
/** The teacher dashboard's routes: marking attendance one student at a time
    or for a whole class, entering marks, listing a class and a student's
    attendance report. */
module Teacher {
  import opened Values
  import opened Seqs
  import opened Numbers
  import opened Store
  import opened Stats
  import opened Profiles

  // ---------------------------------------------------------------------
  // Attendance

  /** `{ date, studentId, status }`. */
  function AttendanceRecord(date: Value, studentId: Value, status: Value): (r: Record)
    ensures r.Keys == {"date", "studentId", "status"}
    ensures Get(r, "date") == Some(date) && Get(r, "studentId") == Some(studentId) && Get(r, "status") == Some(status)
  {
    map["date" := date, "studentId" := studentId, "status" := status]
  }

  /** `POST /api/attendance`: refused without a date, a student or a status;
      otherwise exactly one record is appended. There is no duplicate check. */
  function MarkAttendance(db: Db, body: Record): (reply: Reply<()>)
    ensures reply.result.Ok? <==>
              Truthy(Get(body, "date")) && Truthy(Get(body, "studentId")) && Truthy(Get(body, "status"))
    ensures reply.result.Err? ==> reply == Reply(Err(MissingFields), db)
    ensures reply.result.Ok? ==>
              Read(reply.db, Attendance) ==
              Read(db, Attendance) + [AttendanceRecord(body["date"], body["studentId"], body["status"])]
    ensures OnlyChanged(db, reply.db, Attendance)
  {
    if !Truthy(Get(body, "date")) || !Truthy(Get(body, "studentId")) || !Truthy(Get(body, "status")) then
      Reply(Err(MissingFields), db)
    else
      Reply(Ok(()), Append(db, Attendance, AttendanceRecord(body["date"], body["studentId"], body["status"])))
  }

  /** Marking the same student on the same date twice keeps both records. */
  lemma MarkTwiceKeepsBoth(db: Db, body: Record)
    requires MarkAttendance(db, body).result.Ok?
    ensures var r := AttendanceRecord(body["date"], body["studentId"], body["status"]);
            Read(MarkAttendance(MarkAttendance(db, body).db, body).db, Attendance) == Read(db, Attendance) + [r, r]
  {
  }

  /** A bulk entry is recorded when it names a student and a status. */
  predicate Marked(e: Record) {
    "studentId" in e && "status" in e && Truthy(Get(e, "studentId")) && Truthy(Get(e, "status"))
  }

  /** The record of each entry, in order, all with the same date. */
  function EntryRecords(date: Value, es: seq<Record>): (rs: seq<Record>)
    requires forall e :: e in es ==> "studentId" in e && "status" in e
    ensures |rs| == |es|
    ensures forall i :: 0 <= i < |es| ==> rs[i] == AttendanceRecord(date, es[i]["studentId"], es[i]["status"])
  {
    if |es| == 0 then []
    else [AttendanceRecord(date, es[0]["studentId"], es[0]["status"])] + EntryRecords(date, es[1..])
  }

  /** The records a bulk request appends, entry by entry as the route visits
      them: one per marked entry, each with the request's date. */
  function BulkRecords(date: Value, entries: seq<Record>): (rs: seq<Record>)
    ensures |rs| <= |entries|
    ensures forall i :: 0 <= i < |rs| ==> Get(rs[i], "date") == Some(date)
  {
    if |entries| == 0 then []
    else
      var rest := BulkRecords(date, entries[1..]);
      var e := entries[0];
      if Marked(e) then [AttendanceRecord(date, e["studentId"], e["status"])] + rest else rest
  }

  /** The appended records are exactly those of the marked entries, in
      input order. */
  lemma {:induction false} BulkRecordsOfMarked(date: Value, entries: seq<Record>)
    ensures BulkRecords(date, entries) == EntryRecords(date, Filter(entries, Marked))
  {
    if |entries| > 0 {
      BulkRecordsOfMarked(date, entries[1..]);
      var e := entries[0];
      if Marked(e) {
        var marked := Filter(entries, Marked);
        assert marked == [e] + Filter(entries[1..], Marked);
        assert marked[1..] == Filter(entries[1..], Marked);
      }
    }
  }

  /** The records of a batch followed by one more entry. */
  lemma {:induction false} BulkRecordsSnoc(date: Value, entries: seq<Record>, e: Record)
    ensures BulkRecords(date, entries + [e]) ==
            BulkRecords(date, entries) +
            (if Marked(e) then [AttendanceRecord(date, e["studentId"], e["status"])] else [])
  {
    if |entries| > 0 {
      assert (entries + [e])[1..] == entries[1..] + [e];
      BulkRecordsSnoc(date, entries[1..], e);
    }
  }

  /** What the route does with one entry: append its record when it is
      marked, nothing otherwise. */
  function VisitEntry(db: Db, date: Value, e: Record): (db': Db)
    ensures Read(db', Attendance) ==
            Read(db, Attendance) + (if Marked(e) then [AttendanceRecord(date, e["studentId"], e["status"])] else [])
    ensures OnlyChanged(db, db', Attendance)
  {
    if Marked(e) then
      Append(db, Attendance, AttendanceRecord(date, e["studentId"], e["status"]))
    else db
  }

  /** Visiting one more entry extends the appended records by that entry's. */
  lemma VisitStep(db: Db, cur: Db, date: Value, es: seq<Record>, i: int)
    requires 0 <= i < |es|
    requires Read(cur, Attendance) == Read(db, Attendance) + BulkRecords(date, es[..i])
    ensures Read(VisitEntry(cur, date, es[i]), Attendance) == Read(db, Attendance) + BulkRecords(date, es[..i + 1])
  {
    assert es[..i + 1] == es[..i] + [es[i]];
    BulkRecordsSnoc(date, es[..i], es[i]);
  }

  /** `POST /api/attendance/bulk`. Refused without a date or an attendance
      array; otherwise the entries are visited one at a time, in order, and
      the entries without a student or a status are skipped. An empty array
      is accepted and writes nothing. */
  method BulkAttendance(db: Db, date: Option<Value>, entries: Option<seq<Record>>) returns (reply: Reply<()>)
    ensures reply.result.Ok? <==> Truthy(date) && entries.Some?
    ensures reply.result.Err? ==> reply == Reply(Err(InvalidRequest), db)
    ensures reply.result.Ok? ==>
              Read(reply.db, Attendance) == Read(db, Attendance) + BulkRecords(date.value, entries.value)
    ensures OnlyChanged(db, reply.db, Attendance)
  {
    if !Truthy(date) || entries.None? {
      return Reply(Err(InvalidRequest), db);
    }
    var es := entries.value;
    var cur := db;
    var i := 0;
    while i < |es|
      invariant 0 <= i <= |es|
      invariant Read(cur, Attendance) == Read(db, Attendance) + BulkRecords(date.value, es[..i])
      invariant OnlyChanged(db, cur, Attendance)
    {
      VisitStep(db, cur, date.value, es, i);
      cur := VisitEntry(cur, date.value, es[i]);
      i := i + 1;
    }
    assert es[..|es|] == es;
    reply := Reply(Ok(()), cur);
  }

  /** A bulk request with a single marked entry appends what the single
      route appends for the same date, student and status. */
  lemma BulkOfOneIsSingle(date: Value, e: Record)
    requires Marked(e)
    ensures BulkRecords(date, [e]) == [AttendanceRecord(date, e["studentId"], e["status"])]
  {
  }

  // ---------------------------------------------------------------------
  // Marks

  /** `{ studentId, subject, term, marks: parseFloat(marks) }`. */
  function MarksRecord(body: Record): (r: Record)
    requires "studentId" in body && "subject" in body && "term" in body
    ensures r.Keys == {"studentId", "subject", "term", "marks"}
    ensures Get(r, "studentId") == Get(body, "studentId") && Get(r, "subject") == Get(body, "subject")
    ensures Get(r, "term") == Get(body, "term")
    ensures Get(r, "marks") == Some(NumberOrNull(ParseNumber(Get(body, "marks"))))
  {
    map["studentId" := body["studentId"], "subject" := body["subject"], "term" := body["term"],
        "marks" := NumberOrNull(ParseNumber(Get(body, "marks")))]
  }

  /** `POST /api/marks`: refused without a student, subject or term, or with
      no `marks` field at all; a mark of 0 is a mark. */
  function AddMarks(db: Db, body: Record): (reply: Reply<()>)
    ensures reply.result.Ok? <==>
              Truthy(Get(body, "studentId")) && Truthy(Get(body, "subject")) && Truthy(Get(body, "term")) && "marks" in body
    ensures reply.result.Err? ==> reply == Reply(Err(MissingFields), db)
    ensures reply.result.Ok? ==> Read(reply.db, Marks) == Read(db, Marks) + [MarksRecord(body)]
    ensures OnlyChanged(db, reply.db, Marks)
  {
    if !Truthy(Get(body, "studentId")) || !Truthy(Get(body, "subject")) || !Truthy(Get(body, "term")) || "marks" !in body then
      Reply(Err(MissingFields), db)
    else
      Reply(Ok(()), Append(db, Marks, MarksRecord(body)))
  }

  /** An added mark counts last among the marks of its student, the marks
      the dashboards average; every other student's marks are unchanged. */
  lemma AddedMarkCounted(db: Db, body: Record, key: Option<Value>)
    requires AddMarks(db, body).result.Ok?
    ensures var before := Filter(Read(db, Marks), OfStudent(key));
            var after := Filter(Read(AddMarks(db, body).db, Marks), OfStudent(key));
            && (Get(body, "studentId") == key ==>
                  MarkValues(after) == MarkValues(before) + [AsNumber(Get(MarksRecord(body), "marks"))])
            && (Get(body, "studentId") != key ==> after == before)
  {
    var r := MarksRecord(body);
    var before := Filter(Read(db, Marks), OfStudent(key));
    assert Read(AddMarks(db, body).db, Marks) == Read(db, Marks) + [r];
    FilterAppend(Read(db, Marks), [r], OfStudent(key));
    if Get(body, "studentId") == key {
      assert Filter([r], OfStudent(key)) == [r];
      MarkValuesSnoc(before, r);
    } else {
      assert Filter([r], OfStudent(key)) == [];
    }
  }

  /** A zero mark is accepted and stored as 0, unlike the falsy checks on the
      other fields. */
  lemma ZeroMarkAccepted(db: Db)
    ensures var body := map["studentId" := Str("S1001"), "subject" := Str("Maths"), "term" := Str("T1"), "marks" := Num(0)];
            && AddMarks(db, body).result.Ok?
            && Get(Read(AddMarks(db, body).db, Marks)[|Read(db, Marks)|], "marks") == Some(Num(0))
  {
  }

  // ---------------------------------------------------------------------
  // Class list

  /** A query parameter that is present and non-empty. */
  predicate Given(q: Option<string>) {
    q.Some? && q.value != ""
  }

  /** The condition one query parameter puts on a student: none when it is
      not given, exact equality of the field when it is. */
  predicate Matches(r: Record, field: string, q: Option<string>) {
    Given(q) ==> Get(r, field) == Some(Str(q.value))
  }

  /** Membership of the class the query describes. */
  function InClass(year: Option<string>, branch: Option<string>, section: Option<string>): Record -> bool {
    r => Matches(r, "year", year) && Matches(r, "branch", branch) && Matches(r, "section", section)
  }

  /** `if (q) rs = rs.filter(s => s[field] === q)`. */
  function Narrow(rs: seq<Record>, field: string, q: Option<string>): seq<Record> {
    if Given(q) then Filter(rs, FieldIs(field, Some(Str(q.value)))) else rs
  }

  /** Narrowing by one parameter is filtering by its condition. */
  lemma NarrowIsFilter(rs: seq<Record>, field: string, q: Option<string>)
    ensures Narrow(rs, field, q) == Filter(rs, (r: Record) => Matches(r, field, q))
  {
    var m := (r: Record) => Matches(r, field, q);
    if Given(q) {
      FilterSame(rs, FieldIs(field, Some(Str(q.value))), m);
    } else {
      FilterKeepsAll(rs, m);
    }
  }

  /** `GET /api/teacher/students`: the students of the class, in file order,
      without passwords. The three filters applied one after another select
      exactly the students meeting all three conditions. */
  function ClassStudents(db: Db, year: Option<string>, branch: Option<string>, section: Option<string>): (out: seq<Record>)
    ensures out == StripPasswords(Filter(Read(db, Students), InClass(year, branch, section)))
    ensures |out| <= |Read(db, Students)|
    ensures forall i :: 0 <= i < |out| ==> "password" !in out[i]
  {
    var s0 := Read(db, Students);
    var s1 := Narrow(s0, "year", year);
    var s2 := Narrow(s1, "branch", branch);
    var s3 := Narrow(s2, "section", section);
    ClassFilters(s0, year, branch, section);
    StripPasswords(s3)
  }

  lemma ClassFilters(s0: seq<Record>, year: Option<string>, branch: Option<string>, section: Option<string>)
    ensures Narrow(Narrow(Narrow(s0, "year", year), "branch", branch), "section", section) ==
            Filter(s0, InClass(year, branch, section))
  {
    var my := (r: Record) => Matches(r, "year", year);
    var mb := (r: Record) => Matches(r, "branch", branch);
    var ms := (r: Record) => Matches(r, "section", section);
    var s1 := Narrow(s0, "year", year);
    var s2 := Narrow(s1, "branch", branch);
    NarrowIsFilter(s0, "year", year);
    NarrowIsFilter(s1, "branch", branch);
    NarrowIsFilter(s2, "section", section);
    FilterFilter(s0, my, mb);
    FilterFilter(s0, And(my, mb), ms);
    FilterSame(s0, And(And(my, mb), ms), InClass(year, branch, section));
  }

  /** With no parameter given every student is listed, in file order. */
  lemma WholeSchool(db: Db)
    ensures ClassStudents(db, None, None, None) == StripPasswords(Read(db, Students))
    ensures |ClassStudents(db, None, None, None)| == |Read(db, Students)|
  {
    FilterKeepsAll(Read(db, Students), InClass(None, None, None));
  }

  // ---------------------------------------------------------------------
  // Attendance report

  datatype AttendanceReport = AttendanceReport(attendance: seq<Record>, stats: AttendanceStats)

  /** `GET /api/teacher/attendance/:studentId`: the student's attendance
      records in file order and their statistics. */
  function Report(db: Db, id: string): (r: AttendanceReport)
    ensures r.attendance == Filter(Read(db, Attendance), ById("studentId", id))
    ensures r.stats == StatsOf(r.attendance)
    ensures forall a :: a in r.attendance <==> a in Read(db, Attendance) && Get(a, "studentId") == Some(Str(id))
    ensures r.stats.total == |r.attendance| && r.stats.present <= r.stats.total
    ensures r.stats.absent == r.stats.total - r.stats.present
    ensures 0 <= r.stats.percentage <= 100 && (r.stats.total == 0 ==> r.stats.percentage == 0)
  {
    var attendance := Filter(Read(db, Attendance), ById("studentId", id));
    AttendanceReport(attendance, StatsOf(attendance))
  }

  /** The teacher's report and the student's own dashboard show the same
      records and the same statistics. */
  lemma ReportAgreesWithProfile(db: Db, student: Record, id: string)
    ensures var view := ProfileOf(db, student, Some(Str(id)));
            Report(db, id).attendance == view.attendance && Report(db, id).stats == view.stats
  {
    assert ById("studentId", id) == OfStudent(Some(Str(id)));
  }
}

=== FILE: text.dfy ===
/** The string operations the line-delimited store relies on: JavaScript's
    `String.prototype.trim`, `split('\n')` and `Array.prototype.join('\n')`. */
module Text {

  /** The characters `trim` removes: ECMAScript white space and line terminators. */
  predicate IsSpace(c: char) {
    || ('\t' <= c <= '\r')
    || c == ' ' || c == '\U{A0}' || c == '\U{1680}'
    || ('\U{2000}' <= c <= '\U{200A}')
    || c == '\U{2028}' || c == '\U{2029}' || c == '\U{202F}' || c == '\U{205F}'
    || c == '\U{3000}' || c == '\U{FEFF}'
  }

  predicate AllSpace(s: string) {
    forall i :: 0 <= i < |s| ==> IsSpace(s[i])
  }

  /** Neither end of `s` is white space (and `s` is not empty). */
  predicate Solid(s: string) {
    |s| > 0 && !IsSpace(s[0]) && !IsSpace(s[|s| - 1])
  }

  /** The first index at or after `i` that does not hold white space. */
  function SkipSpace(s: string, i: nat): (k: nat)
    requires i <= |s|
    ensures i <= k <= |s|
    ensures k < |s| ==> !IsSpace(s[k])
    decreases |s| - i
  {
    if i < |s| && IsSpace(s[i]) then SkipSpace(s, i + 1) else i
  }

  /** The end of `s[..j]` once trailing white space is dropped. */
  function SkipSpaceBack(s: string, j: nat): (k: nat)
    requires j <= |s|
    ensures k <= j
    ensures k > 0 ==> !IsSpace(s[k - 1])
  {
    if j > 0 && IsSpace(s[j - 1]) then SkipSpaceBack(s, j - 1) else j
  }

  /** `s.trimStart()`. */
  function TrimStart(s: string): string {
    s[SkipSpace(s, 0)..]
  }

  /** `s.trim()`: empty when `s` is white space only. */
  function Trim(s: string): string {
    var a := SkipSpace(s, 0);
    var b := SkipSpaceBack(s, |s|);
    if a < b then s[a..b] else ""
  }

  lemma {:induction false} SkipSpaceOver(s: string, i: nat)
    requires i <= |s|
    ensures AllSpace(s[i..SkipSpace(s, i)])
    decreases |s| - i
  {
    if i < |s| && IsSpace(s[i]) {
      SkipSpaceOver(s, i + 1);
      assert s[i..SkipSpace(s, i)] == [s[i]] + s[i + 1..SkipSpace(s, i + 1)];
    }
  }

  /** Skipping white space from inside a leading run lands on the first solid
      character, wherever the run started. */
  lemma {:induction false} SkipSpaceFramed(w: string, rest: string, i: nat)
    requires AllSpace(w) && i <= |w|
    requires |rest| > 0 && !IsSpace(rest[0])
    ensures SkipSpace(w + rest, i) == |w|
    decreases |w| - i
  {
    var s := w + rest;
    if i < |w| {
      assert s[i] == w[i];
      SkipSpaceFramed(w, rest, i + 1);
    } else {
      assert s[i] == rest[0];
    }
  }

  lemma {:induction false} SkipSpaceBackFramed(front: string, w: string, j: nat)
    requires AllSpace(w) && |front| <= j <= |front| + |w|
    requires |front| > 0 && !IsSpace(front[|front| - 1])
    ensures SkipSpaceBack(front + w, j) == |front|
  {
    var s := front + w;
    if j > |front| {
      assert s[j - 1] == w[j - 1 - |front|];
      SkipSpaceBackFramed(front, w, j - 1);
    } else {
      assert s[j - 1] == front[|front| - 1];
    }
  }

  /** Trimming a solid text framed by white space gives the text back. */
  lemma TrimFramed(w1: string, core: string, w2: string)
    requires AllSpace(w1) && AllSpace(w2) && Solid(core)
    ensures Trim(w1 + core + w2) == core
  {
    var s := w1 + core + w2;
    assert s == w1 + (core + w2);
    SkipSpaceFramed(w1, core + w2, 0);
    SkipSpaceBackFramed(w1 + core, w2, |s|);
    assert s[|w1|..|w1| + |core|] == core;
  }

  /** A solid line followed by its newline trims to the line. */
  lemma TrimLine(line: string)
    requires Solid(line)
    ensures Trim(line + "\n") == line
  {
    assert "" + line + "\n" == line + "\n";
    TrimFramed("", line, "\n");
  }

  /** A text whose last character is solid splits into leading white space
      and a solid remainder. */
  lemma SplitLeadingSpace(x: string) returns (w: string, y: string)
    requires |x| > 0 && !IsSpace(x[|x| - 1])
    ensures x == w + y && AllSpace(w) && Solid(y)
  {
    var k := SkipSpace(x, 0);
    SkipSpaceOver(x, 0);
    w, y := x[..k], x[k..];
    assert x == w + y;
  }

  /** A text of white space only trims to nothing. */
  lemma TrimBlank(s: string)
    requires AllSpace(s)
    ensures Trim(s) == ""
  {
    SkipAllSpace(s, 0);
  }

  lemma {:induction false} SkipAllSpace(s: string, i: nat)
    requires AllSpace(s) && i <= |s|
    ensures SkipSpace(s, i) == |s|
    decreases |s| - i
  {
    if i < |s| {
      SkipAllSpace(s, i + 1);
    }
  }

  /** `s.split('\n')`: always at least one piece; no piece holds a newline. */
  function Split(s: string): (ls: seq<string>)
    ensures |ls| >= 1
  {
    if |s| == 0 then [""]
    else if s[0] == '\n' then [""] + Split(s[1..])
    else
      var t := Split(s[1..]);
      [[s[0]] + t[0]] + t[1..]
  }

  /** `ls.join('\n')`. */
  function Join(ls: seq<string>): string {
    if |ls| == 0 then ""
    else if |ls| == 1 then ls[0]
    else ls[0] + "\n" + Join(ls[1..])
  }

  /** Splitting at a newline splits the pieces on either side of it apart. */
  lemma {:induction false} SplitAtNewline(a: string, b: string)
    ensures Split(a + "\n" + b) == Split(a) + Split(b)
  {
    if |a| == 0 {
      assert a + "\n" + b == "\n" + b;
      assert ("\n" + b)[1..] == b;
    } else if a[0] == '\n' {
      assert (a + "\n" + b)[1..] == a[1..] + "\n" + b;
      SplitAtNewline(a[1..], b);
    } else {
      assert (a + "\n" + b)[1..] == a[1..] + "\n" + b;
      SplitAtNewline(a[1..], b);
      var t := Split(a[1..]);
      assert Split(a) == [[a[0]] + t[0]] + t[1..];
    }
  }

  lemma {:induction false} SplitNoNewline(a: string)
    requires '\n' !in a
    ensures Split(a) == [a]
  {
    if |a| > 0 {
      assert '\n' !in a[1..] by {
        forall i | 0 <= i < |a[1..]| ensures a[1..][i] != '\n' {
          assert a[1..][i] == a[i + 1];
        }
      }
      SplitNoNewline(a[1..]);
      assert [a[0]] + a[1..] == a;
    }
  }

  /** `split` undoes `join` when no piece holds a newline. */
  lemma {:induction false} SplitJoin(ls: seq<string>)
    requires |ls| >= 1
    requires forall i :: 0 <= i < |ls| ==> '\n' !in ls[i]
    ensures Split(Join(ls)) == ls
  {
    if |ls| == 1 {
      SplitNoNewline(ls[0]);
    } else {
      SplitJoin(ls[1..]);
      SplitNoNewline(ls[0]);
      SplitAtNewline(ls[0], Join(ls[1..]));
      assert [ls[0]] + ls[1..] == ls;
    }
  }

  lemma {:induction false} JoinSolid(ls: seq<string>)
    requires |ls| >= 1
    requires forall i :: 0 <= i < |ls| ==> Solid(ls[i])
    ensures Solid(Join(ls))
  {
    if |ls| > 1 {
      JoinSolid(ls[1..]);
    }
  }
}

=== FILE: values.dfy ===
/** Flat JSON records as the record store holds them.

    Every collection of the school records system is a sequence of flat JSON
    objects. A record is modelled as a finite map from field name to a scalar
    JSON value; a field that is absent from the map is JavaScript's
    `undefined`. Numbers are integers (see README for what that leaves out).
 */
module Values {

  datatype Option<+T> = None | Some(value: T)

  /** A scalar JSON value. `Null` is also what a `NaN` number becomes once it
      is serialised. */
  datatype Value = Str(s: string) | Num(n: int) | Bool(b: bool) | Null

  type Record = map<string, Value>

  /** `record[field]`: the value, or `None` for `undefined`. */
  function Get(r: Record, field: string): (v: Option<Value>)
    ensures v.Some? <==> field in r
    ensures field in r ==> v.value == r[field]
  {
    if field in r then Some(r[field]) else None
  }

  /** JavaScript truthiness of a (possibly undefined) scalar. */
  predicate Truthy(v: Option<Value>)
    ensures Truthy(v) <==> v.Some? && v.value != Str("") && v.value != Num(0) && v.value != Bool(false) && v.value != Null
  {
    match v
    case None => false
    case Some(Str(s)) => s != ""
    case Some(Num(n)) => n != 0
    case Some(Bool(b)) => b
    case Some(Null) => false
  }

  /** `body.field || fallback`: the supplied value when truthy, else the fallback. */
  function OrElse(body: Record, field: string, fallback: Value): (v: Value)
    ensures Truthy(Get(body, field)) ==> v == body[field]
    ensures !Truthy(Get(body, field)) ==> v == fallback
  {
    if Truthy(Get(body, field)) then body[field] else fallback
  }

  /** `record.field === v`, where `v` may itself be `undefined`. */
  function FieldIs(field: string, v: Option<Value>): Record -> bool {
    r => Get(r, field) == v
  }

  /** `{ ...record, ...patch }`: patch fields overwrite, all other fields are kept. */
  function Merge(r: Record, patch: Record): (m: Record)
    ensures m.Keys == r.Keys + patch.Keys
    ensures forall k :: k in patch ==> m[k] == patch[k]
    ensures forall k :: k in r && k !in patch ==> m[k] == r[k]
  {
    r + patch
  }

  /** The record without one field: `const { password, ...rest } = r`, and
      equally `{ ...r, password: undefined }` once serialised. */
  function Without(r: Record, field: string): (m: Record)
    ensures field !in m
    ensures forall k :: k != field ==> Get(m, k) == Get(r, k)
  {
    r - {field}
  }

  /** The numeric reading of a field under JavaScript's `+`/`-` on numbers:
      `null` and `false` count as 0 and `true` as 1. Strings and `undefined`
      (string concatenation, `NaN`) are not modelled and read as 0. */
  function AsNumber(v: Option<Value>): int {
    match v
    case Some(Num(n)) => n
    case Some(Bool(b)) => if b then 1 else 0
    case _ => 0
  }
}
